=== FILE: README.md ===
# Fulfilment app: a Dafny model

This project models the core of a small custom-fulfilment system for an
e-commerce platform. It has two parts:

- **the node server**, a small HTTP service:
  - `/inventory` answers a fake stock level for a SKU;
  - `/carrier-service` quotes tiered shipping rates from the item count;
  - `/request-fulfillment` accepts or declines fulfilment requests and marks accepted orders REQUESTED;
  - `/fulfill-order` issues tracking and marks the order FULFILLED;
- **the embedded admin app's server-side route handlers**:
  - setup step 1 provisions a carrier service, a fulfilment service and an order webhook, adopting name conflicts;
  - setup step 2 stores the merchant's product selection and consolidates its inventory at the fulfilment service's location;
  - the products dashboard adds products and pushes stock levels;
  - the orders dashboard fulfils an order through the node server and the platform;
  - the additional page stores a selection as it is.

Everything is a pure function. Every reply from the platform's GraphQL API,
the database or the node server is an input (a `Replies` value). Every call
the handler makes is an output: a trace of `Call`s, or a list of inventory
`Write`s applied to a `Ledger`, which maps (inventory item, location) to
available quantity. A JavaScript exception that escapes a handler becomes a
`Thrown` response. The database becomes the values handed in and out:
`ShopSetup`, the stored product records and an `OrderTable`.

Modules:

- `Values` holds `Option`, `Result`, `Gid` (a non-empty platform id) and `Truthy`, which is JavaScript truthiness of an optional string.
- `Text` holds lower-casing, substring search, joining and decimal rendering.
- `Store` holds the persisted records.
- `CarrierRates` is the rate quoting behind `/carrier-service`.
- `NodeServer` holds the four node-server handlers.
- `SetupStep1` and `SetupStep2` are the setup wizard.
- `Catalogue` holds product flattening and the added/available split.
- `Consolidation` holds the inventory write plan and its effect on the ledger.
- `DashboardProducts`, `DashboardOrders` and `Additional` are the dashboard routes.

### Behaviour worth knowing

- Step 1 persists nothing when a step fails. Only the final upsert writes, so a retry provisions again from the first missing id (`SetupStep1.FailedRunRetriesCarrier`).
- `/request-fulfillment` sets REQUESTED on any order that exists, including a FULFILLED one. Status can therefore move backwards (`NodeServer.RequestCanMoveFulfilledBack`).
- The orders dashboard lets the node server mark the order FULFILLED before the platform has accepted the fulfilment. A later platform failure leaves it FULFILLED (`DashboardOrders.FailureAfterNodeLeavesFulfilled`).
- Inventory consolidation never writes the SKU-derived quantity. It zeroes the other listed locations and activates the item at the target.
- The products dashboard's add flow does not skip the target location, so it zeroes the target too (`DashboardProducts.AddProductsZeroesEveryLocation`). Setup step 2 skips it (`SetupStep2.Step2Consolidates`).
- `/carrier-service` answers an empty rate list for a non-positive item total. It does not reject it.
- The orders dashboard's fulfil action can throw uncaught. It reads the fulfilment orders of an order the platform does not return, and the user errors of a `fulfillmentCreate` reply without payload. Both are null reads, and the order is left FULFILLED by then.
- The products and orders dashboards call the node server on port 4000. The node server's default port is 4001. The model treats the node server as reachable.
- The products dashboard's add flow and the additional page store selections without the duplicate check that setup step 2 performs (`Additional.RepeatedSelectionIsStoredTwice`), assuming the database adds no uniqueness constraint of its own.

## Model

| member | source | states |
|---|---|---|
| Text.ToLower | app/routes/app.setup.step1.jsx:84-86 | the result has the input's length; each character is lowered when it is an upper-case ASCII letter and unchanged otherwise |
| Text.ToLowerIdempotent | app/routes/app.setup.step1.jsx:84-86 | lowering an already lowered string changes nothing |
| Text.Includes | app/routes/app.setup.step1.jsx:84-86 | true exactly when the pattern occurs at some position of the string |
| Text.OccursInTail | app/routes/app.setup.step1.jsx:84-86 | an occurrence in the tail of a string is an occurrence at a position of at least 1 in the string, and conversely |
| Text.OccursAfterPrefix | app/routes/app.setup.step1.jsx:89-91 | an occurrence survives prefixing, shifted by the prefix's length |
| Text.JoinContainsEach | app/routes/app.setup.step1.jsx:89-91 | every joined part occurs in the joined string |
| Text.DigitChar | node-server/index.js:190 | the character is a decimal digit whose value is the given digit |
| Text.Decimal | node-server/index.js:190 | the rendering of a clock value is a non-empty string of digits whose decimal value is that number, with no leading zero (only 0 renders as "0") |
| Text.LastIndexOf | node-server/index.js:190 | the last position holding the character, or none when it does not occur |
| Text.Utf16Length | node-server/index.js:33 | JavaScript `length`: between the character count and twice it, and equal to the character count exactly when every character lies in the Basic Multilingual Plane |
| Text.Utf16LengthAppend | node-server/index.js:33 | the UTF-16 length of a concatenation is the sum of the parts' lengths |
| Text.Join | app/routes/app.setup.step1.jsx:89-91 | `Array.prototype.join`: the parts in order with the separator between neighbours; its contract is JoinContainsEach |
| CarrierRates.TotalItemsAppend | node-server/index.js:57-60 | the item total of two concatenated lists is the sum of their totals |
| CarrierRates.TotalItems | node-server/index.js:57-60 | the sum of the items' quantities, a missing or zero quantity counting 0; its contract is TotalItemsAppend and MissingQuantityCountsZero |
| CarrierRates.MissingQuantityCountsZero | node-server/index.js:57-60 | an item without a quantity adds nothing to the total |
| CarrierRates.CurrencyOrDefault | node-server/index.js:62 | a present, non-empty currency is used and anything else falls back to USD |
| CarrierRates.QuoteRates | node-server/index.js:71-141 | no rate for a total below 1; otherwise one rate per tier up to the total, capped at three; rate i carries tier i's service name, code, price (0, 500 or 1000) and delivery window in the given currency; the standard rate's description names a single item, two items or multiple items by the total, and the other two carry their fixed descriptions; every window's minimum is at most its maximum |
| CarrierRates.QuoteTiersNest | node-server/index.js:73-141 | a larger item total never offers fewer tiers, and the tiers it shares with a smaller total come in the same order |
| CarrierRates.CarrierService | node-server/index.js:42-143 | the payload is rejected with "Invalid payload: missing rate.items" exactly when the rate or its item list is missing; otherwise the rates are exactly QuoteRates for the item total in the payload's currency or USD |
| NodeServer.Inventory | node-server/index.js:24-38 | a missing or empty sku is rejected with "Missing sku"; any other sku is echoed with a stock level of twice its UTF-16 length, so between twice and four times its character count |
| NodeServer.InventoryAdds | node-server/index.js:33 | the stock level of a concatenated sku is the sum of the parts' levels |
| NodeServer.InventoryCountsCodeUnits | node-server/index.js:33 | a one-emoji sku gets level 4, as does the two-letter sku "A1": a character outside the Basic Multilingual Plane counts as two |
| NodeServer.RequestFulfillment | node-server/index.js:150-178 | missing order id or line items is a bad request; at most one line item is declined with the fixed reason and no change; more than one is accepted exactly when the order exists, and then the order alone becomes REQUESTED; an unknown order is a server error with no change |
| NodeServer.RequestCanMoveFulfilledBack | node-server/index.js:166-171 | accepting a request for a FULFILLED order lowers its status to REQUESTED |
| NodeServer.TrackingNumber | node-server/index.js:190 | "TRK-", the order id, "-" and the decimal clock reading; its contract is ParseTrackingNumberInverts and TrackingNumberInjective |
| NodeServer.ParseTrackingNumberInverts | node-server/index.js:190 | the tracking number issued for an order at a time parses back to that order id and time |
| NodeServer.TrackingNumberInjective | node-server/index.js:190 | different orders or times never share a tracking number |
| NodeServer.FulfillOrder | node-server/index.js:181-207 | a missing order id is a bad request; an existing order becomes FULFILLED and gets exactly the tracking number for the order id and the time, which parses back to both, a tracking URL on the fixed base followed by that number, and the fixed carrier and service; an unknown order is a server error; the rest of the table is unchanged |
| NodeServer.FulfillOrderIsMonotone | node-server/index.js:194-197 | the fulfil handler never lowers any order's status |
| SetupStep1.OrderedConcat | app/routes/app.setup.step1.jsx:37-282 | call traces confined to consecutive phases concatenate into one ordered trace |
| SetupStep1.LowerAll | app/routes/app.setup.step1.jsx:84-86 | every message is lowered in place |
| SetupStep1.ConflictIgnoresCase | app/routes/app.setup.step1.jsx:84-86 | the conflict test answers the same on the messages and on their lowered forms |
| SetupStep1.IsConflict | app/routes/app.setup.step1.jsx:83-86 | some user-error message, lowered, contains the kind's conflict text; its contract is ConflictIgnoresCase |
| SetupStep1.FindByName | app/routes/app.setup.step1.jsx:122-124 | the first node with exactly the given name, or none when no node has it |
| SetupStep1.ProvisionAdoptable | app/routes/app.setup.step1.jsx:37-137 | a reply without payload fails with the kind's message; non-conflict user errors fail with all messages joined by "; "; a conflict, matched case-insensitively, triggers the lookup, which adopts the id of the first listed node with exactly the service name or fails with the not-found message; a clean reply yields the created id |
| SetupStep1.FailureNamesEveryMessage | app/routes/app.setup.step1.jsx:88-92 | a non-conflict failure's error contains every user-error message |
| SetupStep1.ProvisionWebhook | app/routes/app.setup.step1.jsx:239-282 | one create call; success exactly when the payload has no user errors and an id; missing payload and user errors fail with the webhook message |
| SetupStep1.Resolve | app/routes/app.setup.step1.jsx:37 | a stored truthy id is reused with no calls; otherwise provisioning runs |
| SetupStep1.CarrierStep | app/routes/app.setup.step1.jsx:37-137 | a stored carrier id is reused with no calls; otherwise the step is the carrier create-or-adopt, whose first call creates the carrier service; the calls are carrier calls only |
| SetupStep1.FulfillmentStep | app/routes/app.setup.step1.jsx:138-238 | a stored fulfilment-service id is reused with no calls; otherwise the step is the fulfilment-service create-or-adopt; the calls are fulfilment-service calls only |
| SetupStep1.WebhookStep | app/routes/app.setup.step1.jsx:239-282 | a stored webhook id is reused with no calls; otherwise the step is the webhook create; the calls are webhook calls only |
| SetupStep1.Upsert | app/routes/app.setup.step1.jsx:284-299 | the record holds the three ids and step 1 complete; step 2's flag is kept from an existing record and false for a new one |
| SetupStep1.Step1Action | app/routes/app.setup.step1.jsx:10-309 | "already completed" exactly when the flag and all three ids are present, with no calls and no write; otherwise the run completes exactly when every step yields an id and then upserts exactly those three ids (created, adopted or kept) with step 1 complete; else it throws the first failing step's error and stores nothing; calls come in carrier, fulfilment-service, webhook order |
| SetupStep1.AlreadyDone | app/routes/app.setup.step1.jsx:22-27 | a record exists with step 1 complete and all three ids truthy; Step1Action answers "already completed" exactly then |
| SetupStep1.RunCallsFromSteps | app/routes/app.setup.step1.jsx:37-282 | a run's calls are the carrier step's, then the fulfilment-service step's, then the webhook step's, cut off after the step that fails |
| SetupStep1.RunStartsWithCarrier | app/routes/app.setup.step1.jsx:37-137 | unless already completed, a run begins with the carrier step's calls |
| SetupStep1.KnownCarrierIsNotRecreated | app/routes/app.setup.step1.jsx:37 | with a stored carrier id, the carrier service is neither created nor looked up |
| SetupStep1.KnownFulfillmentIsNotRecreated | app/routes/app.setup.step1.jsx:138 | with a stored fulfilment-service id, the fulfilment service is neither created nor looked up |
| SetupStep1.KnownWebhookIsNotRecreated | app/routes/app.setup.step1.jsx:239 | with a stored webhook id, the order webhook is not created |
| SetupStep1.AdoptedCarrierIsStored | app/routes/app.setup.step1.jsx:122-134 | after a conflict, the id of the listed carrier service with exactly the service name is the one a completed run stores |
| SetupStep1.Step1Idempotent | app/routes/app.setup.step1.jsx:22-35 | after a completed run, a second run answers "already completed" with no calls and no change |
| SetupStep1.FailedRunRetriesCarrier | app/routes/app.setup.step1.jsx:37-40 | after a failed run with no stored carrier id, the next run starts by creating the carrier service again |
| Catalogue.Flatten | app/routes/app.setup.step2.jsx:50-62 | one entry per variant, titled "product - variant" |
| Catalogue.FlattenProductMajor | app/routes/app.setup.step2.jsx:50-62 | variant j of product i sits at the position after all variants of the earlier products, carrying both titles and ids |
| Catalogue.FlattenSound | app/routes/app.additional.jsx:30-42 | every flattened entry comes from some variant of some product |
| Catalogue.Available | app/routes/app.dashboard.products.jsx:45-50 | an entry is available exactly when it is in the catalogue and no stored record has its product and variant ids |
| Catalogue.AvailableIsSubsequence | app/routes/app.dashboard.products.jsx:45-50 | the available entries keep the catalogue's order |
| Catalogue.Records | app/routes/app.setup.step2.jsx:91-94 | one record per selected entry, in order, each carrying the given fulfilment-service id |
| Catalogue.Matching | app/routes/app.setup.step2.jsx:95-103 | a stored record is found exactly when some selected entry has its product and variant ids |
| Catalogue.VariantIds | app/routes/app.setup.step2.jsx:158 | the selection's variant ids, in order |
| Catalogue.Titles | app/routes/app.setup.step2.jsx:106 | the records' titles, in order |
| Consolidation.ItemMap | app/routes/app.setup.step2.jsx:184-189 | every non-null node with an inventory item is mapped, and only to an item some node reports |
| Consolidation.Without | app/routes/app.setup.step2.jsx:216-217 | the locations other than the target |
| Consolidation.Block | app/routes/app.setup.step2.jsx:216-298 | one item's writes: zero at each location in turn, then activate at the target |
| Consolidation.Plan | app/routes/app.setup.step2.jsx:207-298 | every write zeroes or activates an inventory item of a selected variant |
| Consolidation.PlanLength | app/routes/app.setup.step2.jsx:207-215 | one block per selected variant that has an inventory item; variants without one are skipped |
| Consolidation.PlanCoversEveryVariant | app/routes/app.setup.step2.jsx:207-298 | each mapped variant's item is zeroed at every listed location and activated at the target |
| Consolidation.PlanZeroesBeforeActivating | app/routes/app.setup.step2.jsx:216-298 | an item's zeroing writes come before its activation |
| Consolidation.ApplyWrite | app/routes/app.setup.step2.jsx:219-298 | setting replaces one level; activating creates a zero level when there is none and otherwise keeps it; every other level is unchanged |
| Consolidation.UntouchedLevelKept | app/routes/app.setup.step2.jsx:219-298 | a level no write addresses is unchanged |
| Consolidation.ZeroingSticks | app/routes/app.setup.step2.jsx:219-298 | a level once zeroed stays zero when later writes only activate it |
| Consolidation.ActivationKeepsLevel | app/routes/app.setup.step2.jsx:262-298 | activations alone leave an existing level as it was, or create it at zero |
| Consolidation.SkippingTargetKeepsItsStock | app/routes/app.setup.step2.jsx:216-298 | a plan that skips the target ends with the item at 0 at every other listed location and its prior quantity (0 if new) at the target |
| Consolidation.ZeroingEverywhereEmptiesTarget | app/routes/app.dashboard.products.jsx:215-262 | a plan that zeroes every listed location ends with the item at 0 at each of them, the target included |
| Consolidation.PlanLeavesOtherItems | app/routes/app.setup.step2.jsx:207-298 | items of variants outside the selection are unchanged |
| SetupStep2.Step2Loader | app/routes/app.setup.step2.jsx:9-66 | an unconfigured shop gets an empty page with the setup error; a configured one gets the flattened catalogue and the stored count |
| SetupStep2.Step2Action | app/routes/app.setup.step2.jsx:69-321 | errors for a missing fulfilment service, an empty selection or an already stored variant, with no change, the last naming the stored matches in the singular or plural message; otherwise the selection is stored with the service id, step 2 is marked complete and the consolidation plan over the non-target locations is issued |
| SetupStep2.DuplicateMessage | app/routes/app.setup.step2.jsx:105-113 | the singular or plural duplicate message followed by the matches' titles joined by ", "; its contract is DuplicateErrorNamesEachMatch |
| SetupStep2.Step2Writes | app/routes/app.setup.step2.jsx:126-313 | no write when the location or locations reply is missing; otherwise the plan that zeroes every non-target location and activates the target |
| SetupStep2.DuplicateErrorNamesEachMatch | app/routes/app.setup.step2.jsx:105-114 | the duplicate error is singular for one match and plural otherwise, and names every matching title |
| SetupStep2.Step2Consolidates | app/routes/app.setup.step2.jsx:154-298 | after a successful run, each selected variant's item reads 0 at every other listed location and keeps its prior quantity at the target |
| DashboardProducts.DashboardLoader | app/routes/app.dashboard.products.jsx:6-52 | added records are returned as stored; an entry is available exactly when it is a catalogue entry not yet added, in catalogue order |
| DashboardProducts.UpdateInventory | app/routes/app.dashboard.products.jsx:62-145 | a missing sku answers "Inventory API failed" with no write; with a sku, a missing setup, location or inventory item is an uncaught throw (a null read), never a returned error; success exactly when the setup, location and inventory item are present, with one write setting the node server's quantity (twice the sku's UTF-16 length) at the fulfilment location |
| DashboardProducts.UpdateInventorySetsTarget | app/routes/app.dashboard.products.jsx:113-143 | after success the target level is the node server's quantity and every other level is unchanged |
| DashboardProducts.AddProducts | app/routes/app.dashboard.products.jsx:147-269 | an empty selection is an error; a missing setup throws; otherwise the selection is stored without a duplicate check; no content exactly when every reply is present, and then step 2 is marked and the plan zeroes every listed location; a missing reply after storing is an uncaught throw (a null read) with no write and step 2 unmarked |
| DashboardProducts.AddProductsZeroesEveryLocation | app/routes/app.dashboard.products.jsx:215-262 | after an add, each selected variant's item reads 0 at every listed location, the fulfilment location included |
| DashboardOrders.FulfillAction | app/routes/app.dashboard.orders.jsx:16-131 | a missing order id makes no call; the node server comes first and its failure stops the flow; once it answers, the order is FULFILLED whatever follows; no fulfilment order is an error; when one exists the platform is always asked to fulfil the first one, with the node server's tracking, no customer notice and the fixed message; success exactly when every reply is clean; user errors are joined by ", "; an order the platform does not know, or a fulfilment reply without payload, is an uncaught throw (a null read), not a returned error |
| DashboardOrders.FailureAfterNodeLeavesFulfilled | app/routes/app.dashboard.orders.jsx:25-128 | a run that fails after the node server answered still leaves the order FULFILLED |
| DashboardOrders.RequestTrackingNamesOrder | app/routes/app.dashboard.orders.jsx:70-118 | the tracking number sent to the platform parses back to the order id and the node server's time |
| Additional.AdditionalAction | app/routes/app.additional.jsx:47-59 | an empty selection answers nothing and stores nothing; otherwise exactly the posted entries are appended, in order, with no fulfilment service |
| Additional.RepeatedSelectionIsStoredTwice | app/routes/app.additional.jsx:51-56 | posting a selection twice stores every entry twice, the database being assumed to accept duplicate (product, variant) records |

## Left out

- Concurrency between route invocations is left out. Each handler runs alone against the records it is given. Interleaved requests, such as two step 1 runs racing to the upsert, are not modelled.
- I/O. HTTP, authentication, GraphQL transport, the database client and logging are left out. Their replies are inputs.
- The clock. `Date.now()` becomes a `now` parameter. The ISO delivery dates of the rates are computed from the current date, so only their day offsets (minimum and maximum delivery days) are modelled.
- JSON parsing of posted selections. Selections arrive as already-parsed `Entry` values. The extra or missing fields a client could post are not modelled.
- Text.ToLower: lowers ASCII letters only. JavaScript's `toLowerCase` also folds non-ASCII letters.
- Transport exceptions in the middle of a consolidation loop are not modelled, nor are per-write user errors. In setup step 2 the loop sits inside a `try`/`catch` (app/routes/app.setup.step2.jsx:126-319): an exception is logged and the action still redirects, and user errors are logged. Records and the step 2 flag are stored before that `try`. The products dashboard's add loop (app/routes/app.dashboard.products.jsx:215-262) has no `catch`. An exception there fails the whole action after the records are stored, so the `step2Completed` update is skipped and step 2 stays unmarked. That loop's user errors are neither checked nor logged.
- CarrierRates.QuoteRates: the delivery timestamps are represented by day counts, not by the ISO strings the handler builds.
- Locations beyond the first ten. Both consolidating handlers ask for `locations(first: 10)`, so the model's location list is that reply; in a shop with more locations, the rest keep their stock, and no contract speaks of them. Likewise the catalogue is the first 100 products the loaders ask for.
- A failed catalogue query is left out. The handlers would throw on the null field; the model takes the catalogue as given.
- The orders list loader (`db.order.findMany` ordered by creation date) is left out: it is plain database listing.
- The UI components of every route, `app.jsx`, `app.dashboard.jsx` and `productpage.jsx` are left out: they are presentation only.
- The database schema is not part of this model. The default `step2Completed = false` for a new setup record and unique order ids are assumed. So is the absence of a uniqueness constraint on a product record's (product id, variant id) pair: with one, a repeated `createMany` would throw instead of storing duplicates.
- The node-server handlers' generic `500 Internal server error` branch is modelled only for the failing database update. Other unexpected exceptions cannot happen in the model.

=== FILE: additional.dfy ===
/** The additional products page: its action stores the posted selection as is. */
module Additional {
  import opened Values
  import opened Catalogue

  datatype Response = NoContent | Success

  datatype Outcome = Outcome(response: Response, products: seq<ManagedProduct>)

  /** An empty selection answers nothing and stores nothing; otherwise exactly
      the posted records are appended, with no fulfilment service and no
      duplicate check, and the answer is success. */
  function AdditionalAction(selection: seq<Entry>, stored: seq<ManagedProduct>): (o: Outcome)
    ensures o.response.NoContent? <==> |selection| == 0
    ensures o.response.NoContent? ==> o.products == stored
    ensures o.response.Success? ==>
      && |o.products| == |stored| + |selection|
      && o.products[..|stored|] == stored
      && forall k :: 0 <= k < |selection| ==> o.products[|stored| + k] == ManagedProduct(selection[k], None)
  {
    if |selection| == 0 then Outcome(NoContent, stored)
    else Outcome(Success, stored + Records(selection, None))
  }

  /** Posting the same selection twice stores it twice: unlike the step 2
      action, nothing here refuses variants that are already stored. */
  lemma RepeatedSelectionIsStoredTwice(selection: seq<Entry>, stored: seq<ManagedProduct>)
    requires |selection| > 0
    ensures var once := AdditionalAction(selection, stored).products;
      var twice := AdditionalAction(selection, once).products;
      && |twice| == |stored| + 2 * |selection|
      && forall k :: 0 <= k < |selection| ==>
           twice[|stored| + k] == twice[|stored| + |selection| + k] == ManagedProduct(selection[k], None)
  {
  }
}

=== FILE: carrier_rates.dfy ===
/** The `/carrier-service` callback of the fulfilment node server: a fixed table
    of shipping options, tiered by the total number of items in the cart. */
module CarrierRates {
  import opened Values

  /** One cart line as the platform posts it; `quantity` may be absent. */
  datatype LineItem = LineItem(quantity: Option<int>)

  /** The `rate` object of the callback payload; `items` is None when it is
      absent or not an array. */
  datatype RateRequest = RateRequest(items: Option<seq<LineItem>>, currency: Option<string>)

  /** One shipping option. Delivery dates are kept as day offsets from the
      moment the callback is evaluated. */
  datatype ShippingRate = ShippingRate(
    serviceName: string,
    serviceCode: string,
    description: string,
    totalPrice: string,
    currency: string,
    minDeliveryDays: int,
    maxDeliveryDays: int)

  datatype RateReply = InvalidPayload(error: string) | Rates(rates: seq<ShippingRate>)

  const InvalidPayloadMessage := "Invalid payload: missing rate.items"
  const DefaultCurrency := "USD"

  /** A row of the tier table: everything about an option except its description and currency. */
  datatype Tier = Tier(serviceName: string, serviceCode: string, totalPrice: string, minDays: int, maxDays: int)

  /** The options in the order they are offered: standard, moderate, fast. */
  const Tiers: seq<Tier> := [
    Tier("Standard Delivery", "STANDARD", "0", 4, 4),
    Tier("Moderate Delivery", "MODERATE", "500", 2, 3),
    Tier("Fast Delivery", "FAST", "1000", 1, 1)
  ]

  predicate Offers(r: ShippingRate, t: Tier, currency: string) {
    && r.serviceName == t.serviceName
    && r.serviceCode == t.serviceCode
    && r.totalPrice == t.totalPrice
    && r.minDeliveryDays == t.minDays
    && r.maxDeliveryDays == t.maxDays
    && r.currency == currency
  }

  /** `item.quantity || 0`. */
  function Quantity(item: LineItem): int {
    match item.quantity
    case Some(q) => q
    case None => 0
  }

  /** The `reduce` over the cart lines: the sum of their quantities. */
  function TotalItems(items: seq<LineItem>): int {
    if |items| == 0 then 0
    else TotalItems(items[..|items| - 1]) + Quantity(items[|items| - 1])
  }

  /** The total of a cart is the sum of the totals of its parts. */
  lemma {:induction false} TotalItemsAppend(a: seq<LineItem>, b: seq<LineItem>)
    ensures TotalItems(a + b) == TotalItems(a) + TotalItems(b)
    decreases |b|
  {
    if |b| == 0 {
      assert a + b == a;
    } else {
      var b' := b[..|b| - 1];
      assert (a + b)[..|a + b| - 1] == a + b';
      TotalItemsAppend(a, b');
    }
  }

  /** A line with no quantity adds nothing to the total. */
  lemma MissingQuantityCountsZero(items: seq<LineItem>)
    ensures TotalItems(items + [LineItem(None)]) == TotalItems(items)
  {
    assert (items + [LineItem(None)])[..|items|] == items;
  }

  /** `rate.currency || "USD"`. */
  function CurrencyOrDefault(currency: Option<string>): (c: string)
    ensures Truthy(currency) ==> c == currency.value
    ensures !Truthy(currency) ==> c == DefaultCurrency
  {
    if Truthy(currency) then currency.value else DefaultCurrency
  }

  function StandardDescription(total: int): string {
    if total == 1 then "Standard delivery for a single item"
    else if total == 2 then "Standard delivery for two items"
    else "Standard delivery for multiple items"
  }

  function Min(a: int, b: int): int {
    if a <= b then a else b
  }

  /** The options quoted for `total` items: as many tiers as items, up to all
      three, each one a row of the tier table in table order, in the request's
      currency; a cart of no items (or a negative total) gets no option. */
  function QuoteRates(total: int, currency: string): (rates: seq<ShippingRate>)
    ensures |rates| == if total < 1 then 0 else Min(total, |Tiers|)
    ensures forall i :: 0 <= i < |rates| ==> Offers(rates[i], Tiers[i], currency)
    ensures forall r :: r in rates ==> r.minDeliveryDays <= r.maxDeliveryDays
    ensures total == 1 ==> rates[0].description == "Standard delivery for a single item"
    ensures total == 2 ==> rates[0].description == "Standard delivery for two items"
    ensures total > 2 ==> rates[0].description == "Standard delivery for multiple items"
    ensures |rates| > 1 ==> rates[1].description == "Moderately fast shipping"
    ensures |rates| > 2 ==> rates[2].description == "Fastest available shipping"
  {
    var standard := ShippingRate("Standard Delivery", "STANDARD", StandardDescription(total), "0", currency, 4, 4);
    var moderate := ShippingRate("Moderate Delivery", "MODERATE", "Moderately fast shipping", "500", currency, 2, 3);
    var fast := ShippingRate("Fast Delivery", "FAST", "Fastest available shipping", "1000", currency, 1, 1);
    if total == 1 then [standard]
    else if total == 2 then [standard, moderate]
    else if total > 2 then [standard, moderate, fast]
    else []
  }

  /** More items never offer fewer options: the options for a smaller cart are
      the leading options of a larger cart, descriptions aside. */
  lemma QuoteTiersNest(n: int, m: int, currency: string)
    requires n <= m
    ensures |QuoteRates(n, currency)| <= |QuoteRates(m, currency)|
    ensures forall i :: 0 <= i < |QuoteRates(n, currency)| ==>
      QuoteRates(n, currency)[i].serviceCode == QuoteRates(m, currency)[i].serviceCode
  {
  }

  /** The `/carrier-service` handler: rejects a payload without `rate` or
      without an `items` array, and otherwise quotes by the total quantity in
      the request's currency, defaulting to USD. */
  function CarrierService(rate: Option<RateRequest>): (reply: RateReply)
    ensures reply.InvalidPayload? <==> rate.None? || rate.value.items.None?
    ensures reply.InvalidPayload? ==> reply.error == InvalidPayloadMessage
    ensures reply.Rates? ==>
      var total := TotalItems(rate.value.items.value);
      && |reply.rates| == (if total < 1 then 0 else Min(total, |Tiers|))
      && forall i :: 0 <= i < |reply.rates| ==>
           Offers(reply.rates[i], Tiers[i], CurrencyOrDefault(rate.value.currency))
    ensures reply.Rates? ==>
      reply.rates == QuoteRates(TotalItems(rate.value.items.value), CurrencyOrDefault(rate.value.currency))
  {
    if rate.None? || rate.value.items.None? then InvalidPayload(InvalidPayloadMessage)
    else Rates(QuoteRates(TotalItems(rate.value.items.value), CurrencyOrDefault(rate.value.currency)))
  }
}

=== FILE: catalogue.dfy ===
/** The merchant's catalogue as the routes see it: products with their
    variants, flattened into one entry per variant, and the managed-product
    records stored for selected entries. */
module Catalogue {
  import opened Values

  datatype Variant = Variant(id: Gid, title: string, sku: string)

  datatype Product = Product(id: Gid, title: string, variants: seq<Variant>)

  /** One catalogue row; also the record a client posts back when it selects the row. */
  datatype Entry = Entry(
    productId: string,
    productTitle: string,
    variantId: string,
    variantTitle: string,
    title: string,
    sku: string)

  /** A stored managed variant: the selected entry and the fulfilment service it is attached to. */
  datatype ManagedProduct = ManagedProduct(entry: Entry, fulfillmentServiceId: Option<string>)

  function EntryOf(p: Product, v: Variant): Entry {
    Entry(p.id, p.title, v.id, v.title, p.title + " - " + v.title, v.sku)
  }

  function ProductEntries(p: Product): seq<Entry> {
    seq(|p.variants|, j requires 0 <= j < |p.variants| => EntryOf(p, p.variants[j]))
  }

  /** The number of variants over all products. */
  function VariantCount(ps: seq<Product>): nat {
    if |ps| == 0 then 0 else |ps[0].variants| + VariantCount(ps[1..])
  }

  /** The nested `forEach` over products and their variants: one entry per
      variant, every entry titled "<product> - <variant>". */
  function Flatten(ps: seq<Product>): (r: seq<Entry>)
    ensures |r| == VariantCount(ps)
    ensures forall e :: e in r ==> e.title == e.productTitle + " - " + e.variantTitle
  {
    if |ps| == 0 then [] else ProductEntries(ps[0]) + Flatten(ps[1..])
  }

  /** Product-major order: variant `j` of product `i` sits right after the
      variants of the products before `i`. */
  lemma {:induction false} FlattenProductMajor(ps: seq<Product>, i: nat, j: nat)
    requires i < |ps| && j < |ps[i].variants|
    ensures VariantCount(ps[..i]) + j < |Flatten(ps)|
    ensures Flatten(ps)[VariantCount(ps[..i]) + j] == EntryOf(ps[i], ps[i].variants[j])
  {
    if i == 0 {
      assert ps[..0] == [];
    } else {
      FlattenProductMajor(ps[1..], i - 1, j);
      assert ps[..i][1..] == ps[1..][..i - 1];
    }
  }

  /** Every flattened entry is some variant of some product. */
  lemma {:induction false} FlattenSound(ps: seq<Product>, e: Entry)
    requires e in Flatten(ps)
    ensures exists i, j :: 0 <= i < |ps| && 0 <= j < |ps[i].variants| && e == EntryOf(ps[i], ps[i].variants[j])
  {
    if e in ProductEntries(ps[0]) {
      var j :| 0 <= j < |ps[0].variants| && ProductEntries(ps[0])[j] == e;
      assert e == EntryOf(ps[0], ps[0].variants[j]);
    } else {
      FlattenSound(ps[1..], e);
      var i, j :| 0 <= i < |ps[1..]| && 0 <= j < |ps[1..][i].variants| && e == EntryOf(ps[1..][i], ps[1..][i].variants[j]);
      assert ps[1..][i] == ps[i + 1];
    }
  }

  predicate SameVariant(a: Entry, b: Entry) {
    a.productId == b.productId && a.variantId == b.variantId
  }

  /** Some stored record has the entry's (productId, variantId) pair. */
  predicate IsAdded(added: seq<ManagedProduct>, e: Entry) {
    exists k :: 0 <= k < |added| && SameVariant(added[k].entry, e)
  }

  /** The catalogue `filter` that hides what is already managed: an entry is
      kept exactly when no stored record has its pair. */
  function Available(catalogue: seq<Entry>, added: seq<ManagedProduct>): (r: seq<Entry>)
    ensures forall e :: e in r <==> e in catalogue && !IsAdded(added, e)
  {
    if |catalogue| == 0 then []
    else (if IsAdded(added, catalogue[0]) then [] else [catalogue[0]]) + Available(catalogue[1..], added)
  }

  /** The available entries keep their catalogue order. */
  lemma {:induction false} AvailableIsSubsequence(catalogue: seq<Entry>, added: seq<ManagedProduct>)
    ensures IsSubseq(Available(catalogue, added), catalogue)
    decreases |catalogue|
  {
    if |catalogue| > 0 {
      var rest := Available(catalogue[1..], added);
      AvailableIsSubsequence(catalogue[1..], added);
      if IsAdded(added, catalogue[0]) {
        assert Available(catalogue, added) == rest;
        if |rest| > 0 {
          assert rest[0] in rest;
          assert rest[0] != catalogue[0];
        }
      } else {
        var r := [catalogue[0]] + rest;
        assert Available(catalogue, added) == r;
        assert r[1..] == rest;
      }
    }
  }

  /** The records inserted for a selection, each attached to the given service. */
  function Records(selection: seq<Entry>, fulfillmentServiceId: Option<string>): (r: seq<ManagedProduct>)
    ensures |r| == |selection|
    ensures forall k :: 0 <= k < |r| ==> r[k].entry == selection[k] && r[k].fulfillmentServiceId == fulfillmentServiceId
  {
    seq(|selection|, k requires 0 <= k < |selection| => ManagedProduct(selection[k], fulfillmentServiceId))
  }

  /** Some selected entry has the pair of `e`. */
  predicate IsSelected(selection: seq<Entry>, e: Entry) {
    exists k :: 0 <= k < |selection| && SameVariant(selection[k], e)
  }

  /** The `findMany` with an OR of the selected pairs: the stored records
      whose pair was selected, in store order. */
  function Matching(stored: seq<ManagedProduct>, selection: seq<Entry>): (r: seq<ManagedProduct>)
    ensures forall m :: m in r <==> m in stored && IsSelected(selection, m.entry)
    ensures |r| <= |stored|
  {
    if |stored| == 0 then []
    else (if IsSelected(selection, stored[0].entry) then [stored[0]] else []) + Matching(stored[1..], selection)
  }

  function VariantIds(selection: seq<Entry>): (r: seq<string>)
    ensures |r| == |selection|
    ensures forall k :: 0 <= k < |r| ==> r[k] == selection[k].variantId
  {
    seq(|selection|, k requires 0 <= k < |selection| => selection[k].variantId)
  }

  function Titles(records: seq<ManagedProduct>): (r: seq<string>)
    ensures |r| == |records|
    ensures forall k :: 0 <= k < |r| ==> r[k] == records[k].entry.title
  {
    seq(|records|, k requires 0 <= k < |records| => records[k].entry.title)
  }
}

=== FILE: consolidation.dfy ===
/** Inventory consolidation: the write plan the routes issue for newly managed
    variants, and what those writes do to the platform's inventory levels. */
module Consolidation {
  import opened Values

  /** A node of the `nodes(ids:)` reply: null for an id that is not a variant,
      otherwise the variant id and its inventory item, if any. */
  datatype VariantNode = NullNode | VariantNode(id: string, inventoryItem: Option<Gid>)

  /** An inventory write: setting the available quantity of an item at a
      location, or activating the item at a location. */
  datatype Write =
    | SetAvailable(item: string, location: string, quantity: int)
    | Activate(item: string, location: string)

  /** Available quantity per (inventory item, location) inventory level. */
  type Ledger = map<(string, string), int>

  function Key(w: Write): (string, string) {
    (w.item, w.location)
  }

  /** The `Map` built from the reply: each variant node with an inventory item
      maps its id to that item, a later node for the same id winning. */
  function ItemMap(nodes: seq<VariantNode>): (m: map<string, Gid>)
    ensures forall v :: v in m ==> VariantNode(v, Some(m[v])) in nodes
    ensures forall k :: 0 <= k < |nodes| && nodes[k].VariantNode? && nodes[k].inventoryItem.Some? ==> nodes[k].id in m
  {
    if |nodes| == 0 then map[]
    else
      var m := ItemMap(nodes[..|nodes| - 1]);
      var last := nodes[|nodes| - 1];
      assert forall k :: 0 <= k < |nodes| - 1 ==> nodes[..|nodes| - 1][k] == nodes[k];
      if last.VariantNode? && last.inventoryItem.Some? then m[last.id := last.inventoryItem.value] else m
  }

  /** The locations other than the target, in their listed order. */
  function Without(locations: seq<string>, target: string): (r: seq<string>)
    ensures forall l :: l in r <==> l in locations && l != target
  {
    if |locations| == 0 then []
    else (if locations[0] == target then [] else [locations[0]]) + Without(locations[1..], target)
  }

  /** One variant's writes: zero at each location in `zeroed`, in order, and
      only then the activation at the target. */
  function Block(item: string, zeroed: seq<string>, target: string): (ws: seq<Write>)
    ensures |ws| == |zeroed| + 1
    ensures forall k :: 0 <= k < |zeroed| ==> ws[k] == SetAvailable(item, zeroed[k], 0)
    ensures ws[|zeroed|] == Activate(item, target)
  {
    seq(|zeroed|, k requires 0 <= k < |zeroed| => SetAvailable(item, zeroed[k], 0)) + [Activate(item, target)]
  }

  /** The number of variant ids that have an inventory item. */
  function MappedCount(variantIds: seq<string>, items: map<string, Gid>): nat {
    if |variantIds| == 0 then 0
    else (if variantIds[0] in items then 1 else 0) + MappedCount(variantIds[1..], items)
  }

  /** The items of the variant ids that have one. */
  ghost function MappedItems(variantIds: seq<string>, items: map<string, Gid>): set<string> {
    set v | v in variantIds && v in items :: items[v]
  }

  /** The consolidation loop: for every variant id with an inventory item, in
      order, that item's block; variant ids without one are skipped. Every
      write zeroes a location of `zeroed` or activates the target, for the
      item of a selected variant. */
  function Plan(variantIds: seq<string>, items: map<string, Gid>, zeroed: seq<string>, target: string): (ws: seq<Write>)
    ensures forall w :: w in ws ==>
      || (w.SetAvailable? && w.quantity == 0 && w.location in zeroed)
      || (w.Activate? && w.location == target)
    ensures forall w :: w in ws ==> w.item in MappedItems(variantIds, items)
  {
    if |variantIds| == 0 then []
    else
      var head := if variantIds[0] in items then Block(items[variantIds[0]], zeroed, target) else [];
      var rest := Plan(variantIds[1..], items, zeroed, target);
      assert MappedItems(variantIds[1..], items) <= MappedItems(variantIds, items) by {
        assert forall v :: v in variantIds[1..] ==> v in variantIds;
      }
      head + rest
  }

  /** One more block of `b` writes. */
  lemma OneMoreBlock(c: nat, b: nat)
    ensures b + c * b == (1 + c) * b
  {
  }

  /** Each variant id with an inventory item contributes one block of
      `|zeroed| + 1` writes; the others contribute none. */
  lemma {:induction false} PlanLength(variantIds: seq<string>, items: map<string, Gid>, zeroed: seq<string>, target: string)
    ensures |Plan(variantIds, items, zeroed, target)| == MappedCount(variantIds, items) * (|zeroed| + 1)
  {
    if |variantIds| > 0 {
      PlanLength(variantIds[1..], items, zeroed, target);
      var rest := Plan(variantIds[1..], items, zeroed, target);
      var c := MappedCount(variantIds[1..], items);
      var b := |zeroed| + 1;
      if variantIds[0] in items {
        var head := Block(items[variantIds[0]], zeroed, target);
        assert Plan(variantIds, items, zeroed, target) == head + rest;
        assert MappedCount(variantIds, items) == 1 + c;
        OneMoreBlock(c, b);
      } else {
        assert Plan(variantIds, items, zeroed, target) == rest;
        assert MappedCount(variantIds, items) == c;
      }
    }
  }

  /** Every selected variant with an inventory item gets its item zeroed at
      each location of `zeroed` and activated at the target. */
  lemma {:induction false} PlanCoversEveryVariant(variantIds: seq<string>, items: map<string, Gid>, zeroed: seq<string>, target: string, v: string)
    requires v in variantIds && v in items
    ensures Activate(items[v], target) in Plan(variantIds, items, zeroed, target)
    ensures forall l :: l in zeroed ==> SetAvailable(items[v], l, 0) in Plan(variantIds, items, zeroed, target)
  {
    var ws := Plan(variantIds, items, zeroed, target);
    var head := if variantIds[0] in items then Block(items[variantIds[0]], zeroed, target) else [];
    var rest := Plan(variantIds[1..], items, zeroed, target);
    assert ws == head + rest;
    if v == variantIds[0] {
      assert head[|zeroed|] == Activate(items[v], target);
      forall l | l in zeroed
        ensures SetAvailable(items[v], l, 0) in ws
      {
        var k :| 0 <= k < |zeroed| && zeroed[k] == l;
        assert head[k] == SetAvailable(items[v], l, 0);
      }
    } else {
      PlanCoversEveryVariant(variantIds[1..], items, zeroed, target, v);
    }
  }

  /** Within the plan, an item is activated only after all of `zeroed` was set
      to 0 for it. */
  lemma {:induction false} PlanZeroesBeforeActivating(variantIds: seq<string>, items: map<string, Gid>, zeroed: seq<string>, target: string, j: nat, l: string)
    requires j < |Plan(variantIds, items, zeroed, target)|
    requires Plan(variantIds, items, zeroed, target)[j].Activate?
    requires l in zeroed
    ensures SetAvailable(Plan(variantIds, items, zeroed, target)[j].item, l, 0) in Plan(variantIds, items, zeroed, target)[..j]
  {
    var ws := Plan(variantIds, items, zeroed, target);
    var rest := Plan(variantIds[1..], items, zeroed, target);
    if variantIds[0] !in items {
      assert ws == rest;
      PlanZeroesBeforeActivating(variantIds[1..], items, zeroed, target, j, l);
    } else {
      var head := Block(items[variantIds[0]], zeroed, target);
      assert ws == head + rest;
      if j < |head| {
        assert ws[j] == head[j];
        assert j == |zeroed|;
        var k :| 0 <= k < |zeroed| && zeroed[k] == l;
        assert ws[..j][k] == head[k];
      } else {
        assert ws[j] == rest[j - |head|];
        PlanZeroesBeforeActivating(variantIds[1..], items, zeroed, target, j - |head|, l);
        assert ws[..j] == head + rest[..j - |head|];
      }
    }
  }

  /** The platform's effect of one write. Setting replaces the level's
      quantity; activating creates the level with 0 when it does not exist and
      otherwise leaves it alone. */
  function ApplyWrite(ledger: Ledger, w: Write): (r: Ledger)
    ensures Key(w) in r
    ensures w.SetAvailable? ==> r[Key(w)] == w.quantity
    ensures w.Activate? ==> r[Key(w)] == (if Key(w) in ledger then ledger[Key(w)] else 0)
    ensures forall key :: key != Key(w) ==> (key in r <==> key in ledger)
    ensures forall key :: key != Key(w) && key in ledger ==> r[key] == ledger[key]
  {
    match w
    case SetAvailable(i, l, q) => ledger[(i, l) := q]
    case Activate(i, l) => if (i, l) in ledger then ledger else ledger[(i, l) := 0]
  }

  /** The writes applied in order. */
  function ApplyAll(ledger: Ledger, ws: seq<Write>): Ledger {
    if |ws| == 0 then ledger else ApplyWrite(ApplyAll(ledger, ws[..|ws| - 1]), ws[|ws| - 1])
  }

  /** A level that no write touches keeps its quantity. */
  lemma {:induction false} UntouchedLevelKept(ledger: Ledger, ws: seq<Write>, key: (string, string))
    requires forall w :: w in ws ==> Key(w) != key
    ensures key in ApplyAll(ledger, ws) <==> key in ledger
    ensures key in ledger ==> ApplyAll(ledger, ws)[key] == ledger[key]
  {
    if |ws| > 0 {
      assert forall w :: w in ws[..|ws| - 1] ==> w in ws;
      UntouchedLevelKept(ledger, ws[..|ws| - 1], key);
    }
  }

  /** A level that some write sets to 0, and that no write sets to anything
      else, reads 0 after the writes. */
  lemma {:induction false} ZeroingSticks(ledger: Ledger, ws: seq<Write>, key: (string, string))
    requires SetAvailable(key.0, key.1, 0) in ws
    requires forall w :: w in ws && w.SetAvailable? && Key(w) == key ==> w.quantity == 0
    ensures key in ApplyAll(ledger, ws) && ApplyAll(ledger, ws)[key] == 0
  {
    var init := ws[..|ws| - 1];
    var last := ws[|ws| - 1];
    assert ws == init + [last];
    assert forall w :: w in init ==> w in ws;
    if last != SetAvailable(key.0, key.1, 0) {
      assert SetAvailable(key.0, key.1, 0) in init;
      ZeroingSticks(ledger, init, key);
    }
  }

  /** A level that only activations touch, and that some activation touches,
      exists afterwards with its old quantity, or 0 when it did not exist. */
  lemma {:induction false} ActivationKeepsLevel(ledger: Ledger, ws: seq<Write>, key: (string, string))
    requires Activate(key.0, key.1) in ws
    requires forall w :: w in ws && Key(w) == key ==> w.Activate?
    ensures key in ApplyAll(ledger, ws)
    ensures ApplyAll(ledger, ws)[key] == if key in ledger then ledger[key] else 0
  {
    var init := ws[..|ws| - 1];
    var last := ws[|ws| - 1];
    assert ws == init + [last];
    assert forall w :: w in init ==> w in ws;
    if Activate(key.0, key.1) in init {
      ActivationKeepsLevel(ledger, init, key);
    } else {
      assert last == Activate(key.0, key.1);
      UntouchedLevelKept(ledger, init, key);
    }
  }

  /** Step 2's consolidation (target skipped in the zeroing): for a selected
      variant with an inventory item, every listed location other than the
      target reads 0, and the target keeps its quantity, or gets a level of 0. */
  lemma SkippingTargetKeepsItsStock(ledger: Ledger, variantIds: seq<string>, items: map<string, Gid>, locations: seq<string>, target: string, v: string)
    requires v in variantIds && v in items
    ensures var after := ApplyAll(ledger, Plan(variantIds, items, Without(locations, target), target));
      && (forall l :: l in locations && l != target ==> (items[v], l) in after && after[(items[v], l)] == 0)
      && (items[v], target) in after
      && after[(items[v], target)] == (if (items[v], target) in ledger then ledger[(items[v], target)] else 0)
  {
    var zeroed := Without(locations, target);
    var ws := Plan(variantIds, items, zeroed, target);
    PlanCoversEveryVariant(variantIds, items, zeroed, target, v);
    forall l | l in locations && l != target
      ensures (items[v], l) in ApplyAll(ledger, ws) && ApplyAll(ledger, ws)[(items[v], l)] == 0
    {
      ZeroingSticks(ledger, ws, (items[v], l));
    }
    ActivationKeepsLevel(ledger, ws, (items[v], target));
  }

  /** The dashboard's consolidation (nothing skipped): for a selected variant
      with an inventory item, every listed location reads 0, the target
      included when it is listed. */
  lemma ZeroingEverywhereEmptiesTarget(ledger: Ledger, variantIds: seq<string>, items: map<string, Gid>, locations: seq<string>, target: string, v: string)
    requires v in variantIds && v in items
    ensures var after := ApplyAll(ledger, Plan(variantIds, items, locations, target));
      && (forall l :: l in locations ==> (items[v], l) in after && after[(items[v], l)] == 0)
      && (target in locations ==> after[(items[v], target)] == 0)
  {
    var ws := Plan(variantIds, items, locations, target);
    PlanCoversEveryVariant(variantIds, items, locations, target, v);
    forall l | l in locations
      ensures (items[v], l) in ApplyAll(ledger, ws) && ApplyAll(ledger, ws)[(items[v], l)] == 0
    {
      ZeroingSticks(ledger, ws, (items[v], l));
    }
  }

  /** Consolidation touches only the items of the selected variants. */
  lemma PlanLeavesOtherItems(ledger: Ledger, variantIds: seq<string>, items: map<string, Gid>, zeroed: seq<string>, target: string, key: (string, string))
    requires key.0 !in MappedItems(variantIds, items)
    ensures var after := ApplyAll(ledger, Plan(variantIds, items, zeroed, target));
      (key in after <==> key in ledger) && (key in ledger ==> after[key] == ledger[key])
  {
    UntouchedLevelKept(ledger, Plan(variantIds, items, zeroed, target), key);
  }
}

=== FILE: dashboard_orders.dfy ===
/** The orders dashboard's fulfil action: the node server marks the order
    FULFILLED and issues tracking, then the platform's fulfilment order is
    looked up and fulfilled with that tracking. */
module DashboardOrders {
  import opened Values
  import opened Text
  import opened Store
  import NodeServer

  const OrderGidPrefix := "gid://shopify/Order/"
  const FulfillmentMessage := "Fulfilled by custom app"

  /** The `fulfillmentCreate` input. */
  datatype FulfillmentRequest = FulfillmentRequest(
    fulfillmentOrderId: Gid,
    trackingCompany: string,
    trackingNumber: string,
    trackingUrl: string,
    notifyCustomer: bool,
    message: string)

  datatype Call =
    | NodeFulfillOrder(orderId: string)
    | OrderLookup(orderGid: string)
    | FulfillmentCreate(request: FulfillmentRequest)

  /** The platform's replies: the order's fulfilment-order ids (None when the
      order is not found) and the user-error messages of `fulfillmentCreate`
      (None when the reply lacks its payload). */
  datatype Replies = Replies(fulfillmentOrders: Option<seq<Gid>>, userErrors: Option<seq<string>>)

  datatype Response = Error(error: string) | Success | Thrown(error: string)

  /** The answer, the calls made in order, and the order table afterwards. */
  datatype Outcome = Outcome(response: Response, calls: seq<Call>, orders: OrderTable)

  /** The fulfil action, with `now` the node server's clock reading. */
  function FulfillAction(orderId: Option<string>, now: nat, orders: OrderTable, replies: Replies): (o: Outcome)
    // a missing order id makes no call
    ensures !Truthy(orderId) ==> o == Outcome(Error("Missing orderId"), [], orders)
    // the node server is called first; its failure stops everything
    ensures Truthy(orderId) ==> |o.calls| >= 1 && o.calls[0] == NodeFulfillOrder(orderId.value)
    ensures Truthy(orderId) && orderId.value !in orders ==>
      o == Outcome(Error("Fulfillment failed on Node server"), [NodeFulfillOrder(orderId.value)], orders)
    // once the node server answered, the order is FULFILLED, whatever the platform says next
    ensures Truthy(orderId) && orderId.value in orders ==> o.orders == orders[orderId.value := Fulfilled]
    ensures |o.calls| >= 2 ==> o.calls[1] == OrderLookup(OrderGidPrefix + orderId.value)
    ensures Truthy(orderId) && orderId.value in orders && replies.fulfillmentOrders == Some([]) ==>
      o.response == Error("No fulfillment order found in Shopify")
    // the platform is asked to fulfil the first fulfilment order with the node server's tracking
    ensures (Truthy(orderId) && orderId.value in orders
             && replies.fulfillmentOrders.Some? && |replies.fulfillmentOrders.value| > 0) ==> |o.calls| == 3
    ensures |o.calls| == 3 ==>
      var id := orderId.value;
      var number := NodeServer.TrackingNumber(id, now);
      && replies.fulfillmentOrders.Some? && |replies.fulfillmentOrders.value| > 0
      && o.calls[2] == FulfillmentCreate(FulfillmentRequest(
           replies.fulfillmentOrders.value[0], NodeServer.TrackingCarrier, number,
           NodeServer.TrackingUrlBase + number, false, FulfillmentMessage))
    ensures o.response.Success? <==>
      Truthy(orderId) && orderId.value in orders
      && replies.fulfillmentOrders.Some? && |replies.fulfillmentOrders.value| > 0
      && replies.userErrors == Some([])
    ensures o.response.Success? ==> |o.calls| == 3
    ensures |o.calls| == 3 && replies.userErrors.Some? && |replies.userErrors.value| > 0 ==>
      o.response == Error(Join(replies.userErrors.value, ", "))
    // an unknown platform order or a reply without payload is read as null and throws
    ensures Truthy(orderId) && orderId.value in orders && replies.fulfillmentOrders.None? ==>
      o.response == Thrown(NullRead) && |o.calls| == 2
    ensures |o.calls| == 3 && replies.userErrors.None? ==> o.response == Thrown(NullRead)
  {
    if !Truthy(orderId) then Outcome(Error("Missing orderId"), [], orders)
    else
      var id := orderId.value;
      var node := NodeServer.FulfillOrder(Some(id), now, orders);
      var calls := [NodeFulfillOrder(id)];
      if !node.reply.Json? then Outcome(Error("Fulfillment failed on Node server"), calls, node.orders)
      else
        var tracking := node.reply.body;
        var calls := calls + [OrderLookup(OrderGidPrefix + id)];
        match replies.fulfillmentOrders
        case None => Outcome(Thrown(NullRead), calls, node.orders)
        case Some(edges) =>
          if |edges| == 0 then Outcome(Error("No fulfillment order found in Shopify"), calls, node.orders)
          else
            var request := FulfillmentRequest(edges[0], tracking.carrier, tracking.trackingNumber,
                                              tracking.trackingUrl, false, FulfillmentMessage);
            var calls := calls + [FulfillmentCreate(request)];
            match replies.userErrors
            case None => Outcome(Thrown(NullRead), calls, node.orders)
            case Some(errors) =>
              if |errors| > 0 then Outcome(Error(Join(errors, ", ")), calls, node.orders)
              else Outcome(Success, calls, node.orders)
  }

  /** A run that fails after the node server answered still leaves the order
      FULFILLED: local status runs ahead of the platform's confirmation. */
  lemma FailureAfterNodeLeavesFulfilled(orderId: string, now: nat, orders: OrderTable, replies: Replies)
    requires orderId != "" && orderId in orders
    requires FulfillAction(Some(orderId), now, orders, replies).response != Success
    ensures var o := FulfillAction(Some(orderId), now, orders, replies);
      o.orders[orderId] == Fulfilled && |o.calls| >= 2
  {
  }

  /** The tracking number handed to the platform names the order it was
      issued for and the node server's clock reading. */
  lemma RequestTrackingNamesOrder(orderId: string, now: nat, orders: OrderTable, replies: Replies)
    requires |FulfillAction(Some(orderId), now, orders, replies).calls| == 3
    ensures var c := FulfillAction(Some(orderId), now, orders, replies).calls[2];
      c.FulfillmentCreate? && NodeServer.ParseTrackingNumber(c.request.trackingNumber) == Some((orderId, now))
  {
    NodeServer.ParseTrackingNumberInverts(orderId, now);
  }
}

=== FILE: dashboard_products.dfy ===
/** The products dashboard: listing managed and available variants, pulling a
    variant's quantity from the fulfilment network into the fulfilment
    location, and adding more variants with consolidation. */
module DashboardProducts {
  import opened Values
  import opened Text
  import opened Store
  import opened Catalogue
  import opened Consolidation
  import NodeServer

  datatype Listing = Listing(addedProducts: seq<ManagedProduct>, availableProducts: seq<Entry>)

  /** The loader: the stored records, and the catalogue entries whose
      (productId, variantId) pair is not stored, in catalogue order. */
  function DashboardLoader(added: seq<ManagedProduct>, catalogue: seq<Product>): (l: Listing)
    ensures l.addedProducts == added
    ensures forall e :: e in l.availableProducts <==> e in Flatten(catalogue) && !IsAdded(added, e)
    ensures IsSubseq(l.availableProducts, Flatten(catalogue))
  {
    AvailableIsSubsequence(Flatten(catalogue), added);
    Listing(added, Available(Flatten(catalogue), added))
  }

  datatype Response = Error(error: string) | Success | NoContent | Thrown(error: string)

  const InventoryFailed := "Inventory API failed"
  const EmptySelection := "Please select at least one product."

  /** The fulfilment service's location as the route reads it: the query
      cannot name a service when the stored id is null or empty. */
  function TargetLocation(setup: ShopSetup, reply: Option<Gid>): Option<Gid> {
    if Truthy(setup.fulfillmentServiceId) then reply else None
  }

  /** Replies for `updateInventory`: the service's location and the posted
      variant's inventory item (None when the reply lacks it). */
  datatype UpdateReplies = UpdateReplies(fulfillmentLocation: Option<Gid>, inventoryItem: Option<Gid>)

  datatype UpdateOutcome = UpdateOutcome(response: Response, writes: seq<Write>)

  /** `updateInventory`: asks the node server's inventory stub for the sku's
      quantity; no quantity is an error with no write; a missing setup record,
      location or inventory item throws with no write; otherwise one write
      sets the quantity at the fulfilment location. */
  function UpdateInventory(sku: Option<string>, setup: Option<ShopSetup>, replies: UpdateReplies): (o: UpdateOutcome)
    ensures !Truthy(sku) ==> o == UpdateOutcome(Error(InventoryFailed), [])
    ensures o.response.Success? <==>
      Truthy(sku) && setup.Some? && TargetLocation(setup.value, replies.fulfillmentLocation).Some? && replies.inventoryItem.Some?
    ensures o.response.Success? ==>
      o.writes == [SetAvailable(replies.inventoryItem.value, replies.fulfillmentLocation.value, 2 * Utf16Length(sku.value))]
    ensures !o.response.Success? ==> o.writes == []
    ensures Truthy(sku) && !o.response.Success? ==> o.response == Thrown(NullRead)
  {
    var inventory := NodeServer.Inventory(sku);
    if !inventory.Json? then UpdateOutcome(Error(InventoryFailed), [])
    else if setup.None? then UpdateOutcome(Thrown(NullRead), [])
    else match (TargetLocation(setup.value, replies.fulfillmentLocation), replies.inventoryItem)
      case (Some(location), Some(item)) =>
        UpdateOutcome(Success, [SetAvailable(item, location, inventory.body.inventory)])
      case _ => UpdateOutcome(Thrown(NullRead), [])
  }

  /** After `updateInventory` succeeds the fulfilment location holds exactly
      the node server's quantity for the sku, and nothing else changed. */
  lemma UpdateInventorySetsTarget(sku: Option<string>, setup: Option<ShopSetup>, replies: UpdateReplies, ledger: Ledger)
    requires UpdateInventory(sku, setup, replies).response.Success?
    ensures var after := ApplyAll(ledger, UpdateInventory(sku, setup, replies).writes);
      var key: (string, string) := (replies.inventoryItem.value, replies.fulfillmentLocation.value);
      && key in after && after[key] == NodeServer.Inventory(sku).body.inventory
      && forall k :: k != key ==> (k in after <==> k in ledger) && (k in ledger ==> after[k] == ledger[k])
  {
    var ws := UpdateInventory(sku, setup, replies).writes;
    assert ws[..|ws| - 1] == [];
  }

  /** Replies for adding products; each None is a reply that lacks its data,
      which throws. */
  datatype AddReplies = AddReplies(
    fulfillmentLocation: Option<Gid>,
    variantNodes: Option<seq<VariantNode>>,
    locations: Option<seq<Gid>>)

  datatype AddOutcome = AddOutcome(response: Response, products: seq<ManagedProduct>, setup: Option<ShopSetup>, writes: seq<Write>)

  /** Adding products. An empty selection is an error; a missing setup record
      throws before anything is stored. Otherwise the selection is stored
      under the setup's service without any duplicate check; a missing
      location, variant nodes or locations reply then throws with the records
      stored but no write and step 2 untouched; else every listed location,
      the target included, is zeroed for each mapped variant before the
      target is activated, and step 2 is marked completed afterwards. */
  function AddProducts(selection: seq<Entry>, setup: Option<ShopSetup>, stored: seq<ManagedProduct>, replies: AddReplies): (o: AddOutcome)
    ensures |selection| == 0 ==> o == AddOutcome(Error(EmptySelection), stored, setup, [])
    ensures |selection| > 0 && setup.None? ==> o == AddOutcome(Thrown(NullRead), stored, setup, [])
    ensures |selection| > 0 && setup.Some? ==> o.products == stored + Records(selection, setup.value.fulfillmentServiceId)
    ensures o.response.NoContent? <==>
      && |selection| > 0 && setup.Some?
      && TargetLocation(setup.value, replies.fulfillmentLocation).Some?
      && replies.variantNodes.Some? && replies.locations.Some?
    ensures o.response.NoContent? ==>
      && o.setup == Some(setup.value.(step2Completed := true))
      && o.writes == Plan(VariantIds(selection), ItemMap(replies.variantNodes.value),
                          replies.locations.value, replies.fulfillmentLocation.value)
    ensures !o.response.NoContent? ==> o.setup == setup && o.writes == []
    ensures |selection| > 0 && setup.Some? && !o.response.NoContent? ==> o.response == Thrown(NullRead)
  {
    if |selection| == 0 then AddOutcome(Error(EmptySelection), stored, setup, [])
    else if setup.None? then AddOutcome(Thrown(NullRead), stored, setup, [])
    else
      var products := stored + Records(selection, setup.value.fulfillmentServiceId);
      match (TargetLocation(setup.value, replies.fulfillmentLocation), replies.variantNodes, replies.locations)
      case (Some(target), Some(nodes), Some(locations)) =>
        AddOutcome(NoContent, products, Some(setup.value.(step2Completed := true)),
                   Plan(VariantIds(selection), ItemMap(nodes), locations, target))
      case _ => AddOutcome(Thrown(NullRead), products, setup, [])
  }

  /** After adding, every listed location reads 0 for each selected variant
      with an inventory item, the fulfilment location included when it is
      listed: the add flow does not skip the target. */
  lemma AddProductsZeroesEveryLocation(selection: seq<Entry>, setup: Option<ShopSetup>, stored: seq<ManagedProduct>, replies: AddReplies, ledger: Ledger, v: string)
    requires AddProducts(selection, setup, stored, replies).response.NoContent?
    requires v in VariantIds(selection) && v in ItemMap(replies.variantNodes.value)
    ensures var after := ApplyAll(ledger, AddProducts(selection, setup, stored, replies).writes);
      var item := ItemMap(replies.variantNodes.value)[v];
      forall l :: l in replies.locations.value ==> (item, l) in after && after[(item, l)] == 0
  {
    ZeroingEverywhereEmptiesTarget(ledger, VariantIds(selection), ItemMap(replies.variantNodes.value),
      replies.locations.value, replies.fulfillmentLocation.value, v);
  }
}

=== FILE: node_server.dfy ===
/** The remaining handlers of the fulfilment node server: the inventory stub,
    the fulfilment request gate and the order fulfilment that issues tracking
    numbers. The server's order table is passed in and returned. */
module NodeServer {
  import opened Values
  import opened Text
  import opened Store
  import CarrierRates

  /** An HTTP reply: 200 with a JSON body, 400 or 500 with an error message. */
  datatype Reply<+T> = Json(body: T) | BadRequest(error: string) | ServerError(error: string)

  /** A reply together with the order table after the handler ran. */
  datatype Handled<+T> = Handled(reply: Reply<T>, orders: OrderTable)

  const InternalError := "Internal server error"

  // ---------------------------------------------------------------- /inventory

  datatype InventoryBody = InventoryBody(sku: string, inventory: int)

  /** The `/inventory` stub: a missing or empty sku is a bad request; otherwise
      the sku is echoed with an inventory of twice its JavaScript length, which
      counts UTF-16 code units. */
  function Inventory(sku: Option<string>): (r: Reply<InventoryBody>)
    ensures r.Json? <==> Truthy(sku)
    ensures !r.Json? ==> r == BadRequest("Missing sku")
    ensures r.Json? ==> r.body.sku == sku.value && r.body.inventory == 2 * Utf16Length(sku.value)
    ensures r.Json? ==> 2 <= 2 * |sku.value| <= r.body.inventory <= 4 * |sku.value|
  {
    if !Truthy(sku) then BadRequest("Missing sku")
    else Json(InventoryBody(sku.value, Utf16Length(sku.value) * 2))
  }

  /** The stock level of a concatenated sku is the sum of the parts' levels. */
  lemma InventoryAdds(a: string, b: string)
    requires a != "" && b != ""
    ensures Inventory(Some(a + b)).body.inventory ==
      Inventory(Some(a)).body.inventory + Inventory(Some(b)).body.inventory
  {
    Utf16LengthAppend(a, b);
  }

  /** A character outside the Basic Multilingual Plane counts twice: the sku
      made of one emoji gets a stock level of 4, not 2. */
  lemma InventoryCountsCodeUnits()
    ensures Inventory(Some("\U{1F600}")).body.inventory == 4
    ensures Inventory(Some("A1")).body.inventory == 4
  {
    assert "\U{1F600}"[1..] == "";
    assert "A1"[1..][1..] == "";
  }

  // ------------------------------------------------------ /request-fulfillment

  datatype Decision = Decision(accepted: bool, reason: Option<string>)

  const DeclineReason := "Fulfillment requires more than one line item"

  /** The `/request-fulfillment` handler. A request without an order id or
      without a line-item array is a bad request; one line item or none is
      declined with a fixed reason; otherwise the order becomes REQUESTED (an
      order missing from the table makes the update throw: a 500). */
  function RequestFulfillment(orderId: Option<string>, lineItems: Option<seq<CarrierRates.LineItem>>, orders: OrderTable): (h: Handled<Decision>)
    ensures h.reply.BadRequest? <==> !Truthy(orderId) || lineItems.None?
    ensures h.reply.Json? && !h.reply.body.accepted <==>
      Truthy(orderId) && lineItems.Some? && |lineItems.value| <= 1
    ensures h.reply.Json? && !h.reply.body.accepted ==> h.reply.body.reason == Some(DeclineReason)
    ensures h.reply.Json? && h.reply.body.accepted <==>
      Truthy(orderId) && lineItems.Some? && |lineItems.value| > 1 && orderId.value in orders
    ensures h.reply.Json? && h.reply.body.accepted ==> h.orders == orders[orderId.value := Requested]
    ensures !(h.reply.Json? && h.reply.body.accepted) ==> h.orders == orders
  {
    if !Truthy(orderId) || lineItems.None? then
      Handled(BadRequest("Missing orderId or lineItems"), orders)
    else if |lineItems.value| <= 1 then
      Handled(Json(Decision(false, Some(DeclineReason))), orders)
    else if orderId.value !in orders then
      Handled(ServerError(InternalError), orders)
    else
      Handled(Json(Decision(true, None)), orders[orderId.value := Requested])
  }

  /** The gate does not look at the current status: an accepted request moves
      an already FULFILLED order back to REQUESTED. */
  lemma RequestCanMoveFulfilledBack(orderId: string, lineItems: seq<CarrierRates.LineItem>, orders: OrderTable)
    requires orderId != "" && |lineItems| > 1
    requires orderId in orders && orders[orderId] == Fulfilled
    ensures var h := RequestFulfillment(Some(orderId), Some(lineItems), orders);
      h.reply.Json? && h.orders[orderId] == Requested && Rank(h.orders[orderId]) < Rank(orders[orderId])
  {
  }

  // ------------------------------------------------------------ /fulfill-order

  const TrackingPrefix := "TRK-"
  const TrackingUrlBase := "https://tracking.example.com/track/"
  const TrackingCarrier := "Custom Fulfillment Carrier"
  const TrackingService := "Standard Delivery"

  datatype Tracking = Tracking(trackingNumber: string, trackingUrl: string, carrier: string, service: string)

  /** `TRK-<orderId>-<Date.now()>`, the clock reading given as a number of milliseconds. */
  function TrackingNumber(orderId: string, now: nat): string {
    TrackingPrefix + orderId + "-" + Decimal(now)
  }

  /** Reads a tracking number back: the order id is what lies between the
      prefix and the last '-', the time is the all-digit rest. */
  function ParseTrackingNumber(t: string): Option<(string, nat)> {
    if |t| < |TrackingPrefix| || t[..|TrackingPrefix|] != TrackingPrefix then None
    else match LastIndexOf(t, '-')
      case None => None
      case Some(k) =>
        if k < |TrackingPrefix| || k + 1 == |t| || !AllDigits(t[k + 1..]) then None
        else Some((t[|TrackingPrefix|..k], DigitsValue(t[k + 1..])))
  }

  /** The order id and the clock reading can be recovered from a tracking number. */
  lemma ParseTrackingNumberInverts(orderId: string, now: nat)
    ensures ParseTrackingNumber(TrackingNumber(orderId, now)) == Some((orderId, now))
  {
    var d := Decimal(now);
    var t := TrackingNumber(orderId, now);
    var k := |TrackingPrefix| + |orderId|;
    assert t == TrackingPrefix + (orderId + "-" + d);
    assert t[..|TrackingPrefix|] == TrackingPrefix;
    assert t[k] == '-';
    assert t[k + 1..] == d;
    assert t[|TrackingPrefix|..k] == orderId;
    assert forall j :: k < j < |t| ==> t[j] == d[j - k - 1];
    var last := LastIndexOf(t, '-');
    assert last == Some(k);
  }

  /** Two tracking numbers are equal only when both the order ids and the
      clock readings are: distinct orders never share a tracking number. */
  lemma TrackingNumberInjective(a: string, b: string, t1: nat, t2: nat)
    ensures TrackingNumber(a, t1) == TrackingNumber(b, t2) ==> a == b && t1 == t2
  {
    ParseTrackingNumberInverts(a, t1);
    ParseTrackingNumberInverts(b, t2);
  }

  /** The `/fulfill-order` handler: a missing order id is a bad request; an
      order missing from the table is a 500; otherwise the order becomes
      FULFILLED and the reply carries a tracking number that encodes the order
      id and the clock, its tracking URL and the fixed carrier and service. */
  function FulfillOrder(orderId: Option<string>, now: nat, orders: OrderTable): (h: Handled<Tracking>)
    ensures h.reply.BadRequest? <==> !Truthy(orderId)
    ensures h.reply.Json? <==> Truthy(orderId) && orderId.value in orders
    ensures h.reply.Json? ==>
      && h.orders == orders[orderId.value := Fulfilled]
      && h.reply.body.trackingNumber == TrackingNumber(orderId.value, now)
      && ParseTrackingNumber(h.reply.body.trackingNumber) == Some((orderId.value, now))
      && h.reply.body.trackingUrl == TrackingUrlBase + h.reply.body.trackingNumber
      && h.reply.body.carrier == TrackingCarrier
      && h.reply.body.service == TrackingService
    ensures !h.reply.Json? ==> h.orders == orders
  {
    if !Truthy(orderId) then Handled(BadRequest("Missing orderId"), orders)
    else
      var number := TrackingNumber(orderId.value, now);
      ParseTrackingNumberInverts(orderId.value, now);
      if orderId.value !in orders then Handled(ServerError(InternalError), orders)
      else
        Handled(Json(Tracking(number, TrackingUrlBase + number, TrackingCarrier, TrackingService)),
                orders[orderId.value := Fulfilled])
  }

  /** Fulfilling never moves an order backwards in its lifecycle. */
  lemma FulfillOrderIsMonotone(orderId: Option<string>, now: nat, orders: OrderTable, id: string)
    requires id in orders
    ensures var h := FulfillOrder(orderId, now, orders);
      id in h.orders && Rank(orders[id]) <= Rank(h.orders[id])
  {
  }
}

=== FILE: setup_step1.dfy ===
/** Step 1 of the setup: provisioning the carrier service, the fulfilment
    service and the order-created webhook on the commerce platform, then one
    upsert of the shop's setup record. Platform replies are inputs; the calls
    the action makes are recorded in order. */
module SetupStep1 {
  import opened Values
  import opened Text
  import opened Store

  const CarrierServiceName := "Custom Carrier Service"
  const FulfillmentServiceName := "Custom Fulfillment Service"

  /** Reply to a create mutation. `NoPayload`: the mutation field of the reply
      is null. `created` is None when the created resource object is null. */
  datatype CreateReply = NoPayload | Payload(userErrors: seq<string>, created: Option<Gid>)

  /** A listed carrier service or fulfilment service: its id and its name. */
  datatype ServiceNode = ServiceNode(id: Gid, name: string)

  datatype Call =
    | CarrierServiceCreate
    | CarrierServicesQuery
    | FulfillmentServiceCreate
    | FulfillmentServicesQuery
    | WebhookSubscriptionCreate

  /** Position of a call in the order the action can make them. */
  function CallRank(c: Call): nat {
    match c
    case CarrierServiceCreate => 0
    case CarrierServicesQuery => 1
    case FulfillmentServiceCreate => 2
    case FulfillmentServicesQuery => 3
    case WebhookSubscriptionCreate => 4
  }

  /** Calls made in strictly increasing rank: in the fixed order, each at most once. */
  predicate InCallOrder(calls: seq<Call>) {
    forall i, j :: 0 <= i < j < |calls| ==> CallRank(calls[i]) < CallRank(calls[j])
  }

  /** The calls are in order and their ranks lie between `lo` and `hi`. */
  predicate CallsWithin(calls: seq<Call>, lo: nat, hi: nat) {
    && InCallOrder(calls)
    && forall i :: 0 <= i < |calls| ==> lo <= CallRank(calls[i]) <= hi
  }

  lemma OrderedConcat(a: seq<Call>, b: seq<Call>, lo: nat, mid: nat, hi: nat)
    requires lo <= mid < hi
    requires CallsWithin(a, lo, mid) && CallsWithin(b, mid + 1, hi)
    ensures CallsWithin(a + b, lo, hi)
  {
    var c := a + b;
    forall i | 0 <= i < |c|
      ensures lo <= CallRank(c[i]) <= hi
    {
      if i < |a| { assert c[i] == a[i]; } else { assert c[i] == b[i - |a|]; }
    }
    forall i, j | 0 <= i < j < |c|
      ensures CallRank(c[i]) < CallRank(c[j])
    {
      if j < |a| {
        assert c[i] == a[i] && c[j] == a[j];
      } else if i >= |a| {
        assert c[i] == b[i - |a|] && c[j] == b[j - |a|];
      } else {
        assert c[i] == a[i] && c[j] == b[j - |a|];
      }
    }
  }

  /** The platform's replies to every call the action may make. A list query
      whose reply lacks its data reads as an empty list. */
  datatype Replies = Replies(
    carrierCreate: CreateReply,
    carrierList: seq<ServiceNode>,
    fulfillmentCreate: CreateReply,
    fulfillmentList: seq<ServiceNode>,
    webhookCreate: CreateReply)

  /** A sub-resource provisioned by create-or-adopt: its name, the message
      fragment that marks a create conflict as "already exists", its error
      texts and its two calls. */
  datatype Adoptable = Adoptable(
    serviceName: string,
    conflictSignature: string,
    failure: string,
    notFound: string,
    create: Call,
    lookup: Call)

  const Carrier := Adoptable(
    CarrierServiceName,
    "already configured",
    "Failed to create carrier service",
    "Carrier service reported as 'already configured' but could not be found via carrierServices query.",
    CarrierServiceCreate,
    CarrierServicesQuery)

  const Fulfillment := Adoptable(
    FulfillmentServiceName,
    "name has already been taken",
    "Failed to create fulfillment service",
    "Fulfillment service name reported as 'already taken' but could not be found via shop.fulfillmentServices.",
    FulfillmentServiceCreate,
    FulfillmentServicesQuery)

  const WebhookFailure := "Failed to create order webhook"

  /** One sub-resource step: the id it settled on or the error it threw, and its calls. */
  datatype Step = Step(outcome: Result<Gid>, calls: seq<Call>)

  /** Some user-error message contains the signature, ignoring case. */
  predicate IsConflict(messages: seq<string>, signature: string) {
    exists k :: 0 <= k < |messages| && Includes(ToLower(messages[k]), signature)
  }

  function LowerAll(messages: seq<string>): (r: seq<string>)
    ensures |r| == |messages|
    ensures forall k :: 0 <= k < |r| ==> r[k] == ToLower(messages[k])
  {
    seq(|messages|, k requires 0 <= k < |messages| => ToLower(messages[k]))
  }

  /** Conflict classification ignores case: lower-casing the messages first
      does not change it. */
  lemma ConflictIgnoresCase(messages: seq<string>, signature: string)
    ensures IsConflict(messages, signature) <==> IsConflict(LowerAll(messages), signature)
  {
    forall k | 0 <= k < |messages|
      ensures ToLower(LowerAll(messages)[k]) == ToLower(messages[k])
    {
      ToLowerIdempotent(messages[k]);
    }
  }

  /** `find` by exact name: the index of the first node with that name. */
  function FindByName(nodes: seq<ServiceNode>, name: string): (r: Option<nat>)
    ensures r.None? <==> forall k :: 0 <= k < |nodes| ==> nodes[k].name != name
    ensures r.Some? ==> r.value < |nodes| && nodes[r.value].name == name
    ensures r.Some? ==> forall k :: 0 <= k < r.value ==> nodes[k].name != name
  {
    if |nodes| == 0 then None
    else if nodes[0].name == name then Some(0)
    else match FindByName(nodes[1..], name)
      case None => None
      case Some(k) => Some(k + 1)
  }

  /** Create-or-adopt. A reply without payload fails. User errors fail with
      all messages joined by "; ", unless one of them is the kind's conflict,
      in which case the listed node with exactly the service name is adopted
      (and none found fails). A clean reply yields the created id. */
  function ProvisionAdoptable(kind: Adoptable, create: CreateReply, listed: seq<ServiceNode>): (s: Step)
    requires kind.create != kind.lookup
    ensures create.NoPayload? ==> s == Step(Err(kind.failure + ": No payload returned"), [kind.create])
    ensures create.Payload? && |create.userErrors| > 0 && !IsConflict(create.userErrors, kind.conflictSignature) ==>
      s == Step(Err(kind.failure + ": " + Join(create.userErrors, "; ")), [kind.create])
    ensures s.calls == [kind.create, kind.lookup] <==>
      create.Payload? && |create.userErrors| > 0 && IsConflict(create.userErrors, kind.conflictSignature)
    ensures s.calls == [kind.create] || s.calls == [kind.create, kind.lookup]
    ensures |s.calls| == 2 ==>
      (s.outcome.Ok? <==> exists k :: 0 <= k < |listed| && listed[k].name == kind.serviceName)
    ensures |s.calls| == 2 && s.outcome.Ok? ==>
      exists k :: 0 <= k < |listed| && listed[k].name == kind.serviceName && listed[k].id == s.outcome.value
    ensures |s.calls| == 2 && s.outcome.Ok? ==>
      FindByName(listed, kind.serviceName).Some? && s.outcome.value == listed[FindByName(listed, kind.serviceName).value].id
    ensures |s.calls| == 2 && s.outcome.Err? ==> s.outcome.error == kind.notFound
    ensures create.Payload? && |create.userErrors| == 0 ==>
      s.outcome == (if create.created.Some? then Ok(create.created.value) else Err(NullRead))
  {
    match create
    case NoPayload => Step(Err(kind.failure + ": No payload returned"), [kind.create])
    case Payload(errors, created) =>
      if |errors| > 0 then
        if !IsConflict(errors, kind.conflictSignature) then
          Step(Err(kind.failure + ": " + Join(errors, "; ")), [kind.create])
        else
          match FindByName(listed, kind.serviceName)
          case None => Step(Err(kind.notFound), [kind.create, kind.lookup])
          case Some(k) => Step(Ok(listed[k].id), [kind.create, kind.lookup])
      else
        match created
        case None => Step(Err(NullRead), [kind.create])
        case Some(id) => Step(Ok(id), [kind.create])
  }

  /** Create only: any user error is fatal, with the messages joined by "; ". */
  function ProvisionWebhook(create: CreateReply): (s: Step)
    ensures s.calls == [WebhookSubscriptionCreate]
    ensures s.outcome.Ok? <==> create.Payload? && |create.userErrors| == 0 && create.created.Some?
    ensures s.outcome.Ok? ==> s.outcome.value == create.created.value
    ensures create.NoPayload? ==> s.outcome == Err(WebhookFailure + ": No payload returned")
    ensures create.Payload? && |create.userErrors| > 0 ==>
      s.outcome == Err(WebhookFailure + ": " + Join(create.userErrors, "; "))
  {
    match create
    case NoPayload => Step(Err(WebhookFailure + ": No payload returned"), [WebhookSubscriptionCreate])
    case Payload(errors, created) =>
      if |errors| > 0 then Step(Err(WebhookFailure + ": " + Join(errors, "; ")), [WebhookSubscriptionCreate])
      else match created
        case None => Step(Err(NullRead), [WebhookSubscriptionCreate])
        case Some(id) => Step(Ok(id), [WebhookSubscriptionCreate])
  }

  /** A sub-resource whose persisted id is truthy is skipped: that id is kept and nothing is called. */
  function Resolve(known: Option<string>, provision: Step): (s: Step)
    ensures Truthy(known) ==> s.outcome == Ok(known.value) && s.calls == []
    ensures !Truthy(known) ==> s == provision
  {
    if Truthy(known) then Step(Ok(known.value), []) else provision
  }

  function CarrierId(existing: Option<ShopSetup>): Option<string> {
    if existing.Some? then existing.value.carrierServiceId else None
  }

  function FulfillmentId(existing: Option<ShopSetup>): Option<string> {
    if existing.Some? then existing.value.fulfillmentServiceId else None
  }

  function WebhookId(existing: Option<ShopSetup>): Option<string> {
    if existing.Some? then existing.value.orderWebhookId else None
  }

  /** The carrier service step: skipped when its id is known, otherwise it
      starts by creating the service. */
  function CarrierStep(existing: Option<ShopSetup>, replies: Replies): (s: Step)
    ensures Truthy(CarrierId(existing)) ==> s.outcome == Ok(CarrierId(existing).value) && s.calls == []
    ensures !Truthy(CarrierId(existing)) ==> |s.calls| > 0 && s.calls[0] == CarrierServiceCreate
    ensures !Truthy(CarrierId(existing)) ==> s == ProvisionAdoptable(Carrier, replies.carrierCreate, replies.carrierList)
    ensures CallsWithin(s.calls, 0, 1)
  {
    Resolve(CarrierId(existing), ProvisionAdoptable(Carrier, replies.carrierCreate, replies.carrierList))
  }

  /** The fulfilment service step: skipped when its id is known. */
  function FulfillmentStep(existing: Option<ShopSetup>, replies: Replies): (s: Step)
    ensures Truthy(FulfillmentId(existing)) ==> s.outcome == Ok(FulfillmentId(existing).value) && s.calls == []
    ensures !Truthy(FulfillmentId(existing)) ==>
      s == ProvisionAdoptable(Fulfillment, replies.fulfillmentCreate, replies.fulfillmentList)
    ensures CallsWithin(s.calls, 2, 3)
  {
    Resolve(FulfillmentId(existing), ProvisionAdoptable(Fulfillment, replies.fulfillmentCreate, replies.fulfillmentList))
  }

  /** The webhook step: skipped when its id is known. */
  function WebhookStep(existing: Option<ShopSetup>, replies: Replies): (s: Step)
    ensures Truthy(WebhookId(existing)) ==> s.outcome == Ok(WebhookId(existing).value) && s.calls == []
    ensures !Truthy(WebhookId(existing)) ==> s == ProvisionWebhook(replies.webhookCreate)
    ensures CallsWithin(s.calls, 4, 4)
  {
    Resolve(WebhookId(existing), ProvisionWebhook(replies.webhookCreate))
  }

  predicate AlreadyDone(existing: Option<ShopSetup>) {
    && existing.Some?
    && existing.value.step1Completed
    && Truthy(CarrierId(existing))
    && Truthy(FulfillmentId(existing))
    && Truthy(WebhookId(existing))
  }

  /** The upsert: the three ids and the completion flag replace the stored
      ones; a new record starts with step 2 not completed. */
  function Upsert(existing: Option<ShopSetup>, carrier: Gid, fulfillment: Gid, webhook: Gid): (s: ShopSetup)
    ensures s.carrierServiceId == Some(carrier)
    ensures s.fulfillmentServiceId == Some(fulfillment)
    ensures s.orderWebhookId == Some(webhook)
    ensures s.step1Completed
    ensures s.step2Completed == (existing.Some? && existing.value.step2Completed)
  {
    match existing
    case Some(e) =>
      e.(carrierServiceId := Some(carrier), fulfillmentServiceId := Some(fulfillment),
         orderWebhookId := Some(webhook), step1Completed := true)
    case None => ShopSetup(Some(carrier), Some(fulfillment), Some(webhook), true, false)
  }

  datatype Response = AlreadyCompleted | Completed | Thrown(error: string)

  /** What a run answers, the calls it made and the shop's record afterwards. */
  datatype Run = Run(response: Response, calls: seq<Call>, stored: Option<ShopSetup>)

  /** The step 1 action. */
  function Step1Action(existing: Option<ShopSetup>, replies: Replies): (run: Run)
    // a completed setup is answered without any call or write
    ensures AlreadyDone(existing) <==> run.response.AlreadyCompleted?
    ensures AlreadyDone(existing) ==> run.calls == [] && run.stored == existing
    // the only write is the final upsert; a failure leaves the record as it was
    ensures !run.response.Completed? ==> run.stored == existing
    ensures run.response.Completed? ==>
      && run.stored.Some?
      && run.stored.value.step1Completed
      && Truthy(run.stored.value.carrierServiceId)
      && Truthy(run.stored.value.fulfillmentServiceId)
      && Truthy(run.stored.value.orderWebhookId)
      && run.stored.value.step2Completed == (existing.Some? && existing.value.step2Completed)
    // a known sub-resource keeps its id (and is not re-created: see the Known*IsNotRecreated lemmas)
    ensures Truthy(CarrierId(existing)) ==> CarrierId(run.stored) == CarrierId(existing)
    ensures Truthy(FulfillmentId(existing)) ==> FulfillmentId(run.stored) == FulfillmentId(existing)
    ensures Truthy(WebhookId(existing)) ==> WebhookId(run.stored) == WebhookId(existing)
    // the run completes exactly when every step yields an id, and stores those ids
    ensures run.response.Completed? <==>
      && !AlreadyDone(existing)
      && CarrierStep(existing, replies).outcome.Ok?
      && FulfillmentStep(existing, replies).outcome.Ok?
      && WebhookStep(existing, replies).outcome.Ok?
    ensures run.response.Completed? ==>
      run.stored == Some(Upsert(existing, CarrierStep(existing, replies).outcome.value,
                                FulfillmentStep(existing, replies).outcome.value,
                                WebhookStep(existing, replies).outcome.value))
    // otherwise the first failing step's error is thrown
    ensures (!AlreadyDone(existing) && CarrierStep(existing, replies).outcome.Err?) ==>
      run.response == Thrown(CarrierStep(existing, replies).outcome.error)
    ensures (!AlreadyDone(existing) && CarrierStep(existing, replies).outcome.Ok?
             && FulfillmentStep(existing, replies).outcome.Err?) ==>
      run.response == Thrown(FulfillmentStep(existing, replies).outcome.error)
    ensures (!AlreadyDone(existing) && CarrierStep(existing, replies).outcome.Ok?
             && FulfillmentStep(existing, replies).outcome.Ok? && WebhookStep(existing, replies).outcome.Err?) ==>
      run.response == Thrown(WebhookStep(existing, replies).outcome.error)
    // calls follow the fixed order carrier, fulfilment service, webhook
    ensures InCallOrder(run.calls)
  {
    if AlreadyDone(existing) then Run(AlreadyCompleted, [], existing)
    else
      var carrier := CarrierStep(existing, replies);
      if carrier.outcome.Err? then Run(Thrown(carrier.outcome.error), carrier.calls, existing)
      else
        var fulfillment := FulfillmentStep(existing, replies);
        OrderedConcat(carrier.calls, fulfillment.calls, 0, 1, 3);
        var calls := carrier.calls + fulfillment.calls;
        if fulfillment.outcome.Err? then Run(Thrown(fulfillment.outcome.error), calls, existing)
        else
          var webhook := WebhookStep(existing, replies);
          OrderedConcat(calls, webhook.calls, 0, 3, 4);
          var calls := calls + webhook.calls;
          if webhook.outcome.Err? then Run(Thrown(webhook.outcome.error), calls, existing)
          else
            Run(Completed, calls,
                Some(Upsert(existing, carrier.outcome.value, fulfillment.outcome.value, webhook.outcome.value)))
  }

  /** The calls of a run are those of the steps that ran, in order: the
      carrier step's, then the fulfilment-service step's, then the webhook
      step's, stopping after the first step that fails. */
  lemma RunCallsFromSteps(existing: Option<ShopSetup>, replies: Replies)
    requires !AlreadyDone(existing)
    ensures var a := CarrierStep(existing, replies).calls;
      var b := FulfillmentStep(existing, replies).calls;
      var w := WebhookStep(existing, replies).calls;
      var calls := Step1Action(existing, replies).calls;
      calls == a || calls == a + b || calls == a + b + w
  {
  }

  /** A run that is not answered as already completed starts with the carrier
      step's calls. */
  lemma RunStartsWithCarrier(existing: Option<ShopSetup>, replies: Replies)
    requires !AlreadyDone(existing)
    ensures var carrier := CarrierStep(existing, replies).calls;
      var calls := Step1Action(existing, replies).calls;
      |carrier| <= |calls| && calls[..|carrier|] == carrier
  {
    RunCallsFromSteps(existing, replies);
    var a := CarrierStep(existing, replies).calls;
    var b := FulfillmentStep(existing, replies).calls;
    var w := WebhookStep(existing, replies).calls;
    assert (a + b)[..|a|] == a;
    assert (a + b + w)[..|a|] == a;
  }

  /** No call in the trace has a rank outside [lo, hi]. */
  lemma RankedOut(calls: seq<Call>, lo: nat, hi: nat, c: Call)
    requires CallsWithin(calls, lo, hi)
    requires CallRank(c) < lo || CallRank(c) > hi
    ensures c !in calls
  {
  }

  /** A call that none of the three steps makes is not in the run's trace. */
  lemma NotInAnyStep(existing: Option<ShopSetup>, replies: Replies, c: Call)
    requires c !in CarrierStep(existing, replies).calls
    requires c !in FulfillmentStep(existing, replies).calls
    requires c !in WebhookStep(existing, replies).calls
    ensures c !in Step1Action(existing, replies).calls
  {
    if !AlreadyDone(existing) {
      RunCallsFromSteps(existing, replies);
    }
  }

  /** A known carrier service is neither created nor looked up again. */
  lemma KnownCarrierIsNotRecreated(existing: Option<ShopSetup>, replies: Replies)
    requires Truthy(CarrierId(existing))
    ensures var calls := Step1Action(existing, replies).calls;
      CarrierServiceCreate !in calls && CarrierServicesQuery !in calls
  {
    var b := FulfillmentStep(existing, replies).calls;
    var w := WebhookStep(existing, replies).calls;
    RankedOut(b, 2, 3, CarrierServiceCreate);
    RankedOut(b, 2, 3, CarrierServicesQuery);
    RankedOut(w, 4, 4, CarrierServiceCreate);
    RankedOut(w, 4, 4, CarrierServicesQuery);
    NotInAnyStep(existing, replies, CarrierServiceCreate);
    NotInAnyStep(existing, replies, CarrierServicesQuery);
  }

  /** A known fulfilment service is neither created nor looked up again. */
  lemma KnownFulfillmentIsNotRecreated(existing: Option<ShopSetup>, replies: Replies)
    requires Truthy(FulfillmentId(existing))
    ensures var calls := Step1Action(existing, replies).calls;
      FulfillmentServiceCreate !in calls && FulfillmentServicesQuery !in calls
  {
    var a := CarrierStep(existing, replies).calls;
    var w := WebhookStep(existing, replies).calls;
    RankedOut(a, 0, 1, FulfillmentServiceCreate);
    RankedOut(a, 0, 1, FulfillmentServicesQuery);
    RankedOut(w, 4, 4, FulfillmentServiceCreate);
    RankedOut(w, 4, 4, FulfillmentServicesQuery);
    NotInAnyStep(existing, replies, FulfillmentServiceCreate);
    NotInAnyStep(existing, replies, FulfillmentServicesQuery);
  }

  /** A known order webhook is not created again. */
  lemma KnownWebhookIsNotRecreated(existing: Option<ShopSetup>, replies: Replies)
    requires Truthy(WebhookId(existing))
    ensures WebhookSubscriptionCreate !in Step1Action(existing, replies).calls
  {
    RankedOut(CarrierStep(existing, replies).calls, 0, 1, WebhookSubscriptionCreate);
    RankedOut(FulfillmentStep(existing, replies).calls, 2, 3, WebhookSubscriptionCreate);
    NotInAnyStep(existing, replies, WebhookSubscriptionCreate);
  }

  /** When the carrier service already exists under its name, the id of the
      listed service with exactly that name is the one a completed run stores. */
  lemma AdoptedCarrierIsStored(existing: Option<ShopSetup>, replies: Replies, k: nat)
    requires !Truthy(CarrierId(existing))
    requires replies.carrierCreate.Payload? && IsConflict(replies.carrierCreate.userErrors, Carrier.conflictSignature)
    requires FindByName(replies.carrierList, CarrierServiceName) == Some(k)
    requires Step1Action(existing, replies).response.Completed?
    ensures CarrierId(Step1Action(existing, replies).stored) == Some(replies.carrierList[k].id)
  {
  }

  /** Running step 1 again after it completed makes no call and changes nothing. */
  lemma Step1Idempotent(existing: Option<ShopSetup>, first: Replies, second: Replies)
    requires Step1Action(existing, first).response.Completed?
    ensures var again := Step1Action(Step1Action(existing, first).stored, second);
      again.response.AlreadyCompleted? && again.calls == [] && again.stored == Step1Action(existing, first).stored
  {
  }

  /** A failed run persists nothing, so a carrier service created by it is not
      remembered: the next run tries to create the carrier service again. */
  lemma FailedRunRetriesCarrier(existing: Option<ShopSetup>, first: Replies, second: Replies)
    requires !Truthy(CarrierId(existing))
    requires Step1Action(existing, first).response.Thrown?
    ensures var again := Step1Action(Step1Action(existing, first).stored, second);
      |again.calls| > 0 && again.calls[0] == CarrierServiceCreate
  {
    assert Step1Action(existing, first).stored == existing;
    RunStartsWithCarrier(existing, second);
  }

  /** A failure that is not a conflict surfaces every user-error message. */
  lemma FailureNamesEveryMessage(kind: Adoptable, errors: seq<string>, created: Option<Gid>, listed: seq<ServiceNode>, k: int)
    requires kind.create != kind.lookup
    requires 0 <= k < |errors| && !IsConflict(errors, kind.conflictSignature)
    ensures var s := ProvisionAdoptable(kind, Payload(errors, created), listed);
      s.outcome.Err? && Includes(s.outcome.error, errors[k])
  {
    var joined := Join(errors, "; ");
    JoinContainsEach(errors, "; ", k);
    var i :| OccursAt(joined, errors[k], i);
    OccursAfterPrefix(kind.failure + ": ", joined, errors[k], i);
  }
}

=== FILE: setup_step2.dfy ===
/** Step 2 of the setup: listing the catalogue once step 1 is done, then
    storing the selected variants under the shop's fulfilment service and
    consolidating their inventory onto the service's location. */
module SetupStep2 {
  import opened Values
  import opened Text
  import opened Store
  import opened Catalogue
  import opened Consolidation

  const LoaderNotConfigured := "Fulfillment service is not configured. Please complete Step 1 first."
  const ActionNotConfigured := "Fulfillment service is not configured. Please complete the previous step first."
  const EmptySelection := "Please select at least one product."

  datatype Page = Page(products: seq<Entry>, productCount: nat, setupError: Option<string>)

  /** Step 1 finished with a fulfilment service. */
  predicate Configured(setup: Option<ShopSetup>) {
    setup.Some? && setup.value.step1Completed && Truthy(setup.value.fulfillmentServiceId)
  }

  /** The loader: without a completed step 1 and a fulfilment service it lists
      nothing and reports the setup error; otherwise it lists the flattened
      catalogue and the count of stored products. */
  function Step2Loader(setup: Option<ShopSetup>, catalogue: seq<Product>, productCount: nat): (page: Page)
    ensures page.setupError.Some? <==> !Configured(setup)
    ensures !Configured(setup) ==> page == Page([], 0, Some(LoaderNotConfigured))
    ensures Configured(setup) ==> page == Page(Flatten(catalogue), productCount, None)
  {
    if !Configured(setup) then Page([], 0, Some(LoaderNotConfigured))
    else Page(Flatten(catalogue), productCount, None)
  }

  /** The platform's replies during consolidation: the fulfilment service's
      location (None when absent), the variant nodes (a reply without data
      reads as no nodes) and the merchant's locations (None when the reply
      lacks them, which throws inside the guarded block). */
  datatype Replies = Replies(
    fulfillmentLocation: Option<Gid>,
    variantNodes: seq<VariantNode>,
    locations: Option<seq<Gid>>)

  datatype Response = Error(error: string) | RedirectToProducts

  /** The answer, the stored products and setup afterwards, and the inventory writes issued. */
  datatype Outcome = Outcome(response: Response, products: seq<ManagedProduct>, setup: Option<ShopSetup>, writes: seq<Write>)

  /** The duplicate error, singular for one stored match and plural otherwise. */
  function DuplicateMessage(existing: seq<ManagedProduct>): string {
    var titles := Join(Titles(existing), ", ");
    if |existing| == 1 then "This product is already added: " + titles
    else "These products are already added: " + titles
  }

  /** The consolidation for the selection; skips the target location when zeroing. */
  function Step2Writes(selection: seq<Entry>, replies: Replies): seq<Write> {
    if replies.fulfillmentLocation.None? || replies.locations.None? then []
    else
      var target := replies.fulfillmentLocation.value;
      Plan(VariantIds(selection), ItemMap(replies.variantNodes), Without(replies.locations.value, target), target)
  }

  /** The action. */
  function Step2Action(setup: Option<ShopSetup>, selection: seq<Entry>, stored: seq<ManagedProduct>, replies: Replies): (o: Outcome)
    // guards: every error writes nothing
    ensures o.response.Error? ==> o.products == stored && o.setup == setup && o.writes == []
    ensures setup.None? || !Truthy(setup.value.fulfillmentServiceId) ==> o.response == Error(ActionNotConfigured)
    ensures setup.Some? && Truthy(setup.value.fulfillmentServiceId) && |selection| == 0 ==> o.response == Error(EmptySelection)
    // duplicates: any selected pair already stored is an error
    ensures o.response.Error? <==>
      setup.None? || !Truthy(setup.value.fulfillmentServiceId) || |selection| == 0
      || exists m :: m in stored && IsSelected(selection, m.entry)
    ensures (setup.Some? && Truthy(setup.value.fulfillmentServiceId) && |selection| > 0
             && |Matching(stored, selection)| > 0) ==>
      o.response == Error(DuplicateMessage(Matching(stored, selection)))
    // success: the selection is stored under the shop's service and step 2 is
    // marked completed, whatever consolidation does
    ensures o.response.RedirectToProducts? ==>
      && o.products == stored + Records(selection, setup.value.fulfillmentServiceId)
      && o.setup == Some(setup.value.(step2Completed := true))
      && o.writes == Step2Writes(selection, replies)
    // consolidation never zeroes the target location
    ensures replies.fulfillmentLocation.Some? ==>
      forall w :: w in o.writes && w.SetAvailable? ==> w.location != replies.fulfillmentLocation.value
  {
    if setup.None? || !Truthy(setup.value.fulfillmentServiceId) then
      Outcome(Error(ActionNotConfigured), stored, setup, [])
    else if |selection| == 0 then
      Outcome(Error(EmptySelection), stored, setup, [])
    else
      var existing := Matching(stored, selection);
      if |existing| > 0 then
        assert existing[0] in existing;
        Outcome(Error(DuplicateMessage(existing)), stored, setup, [])
      else
        Outcome(RedirectToProducts, stored + Records(selection, setup.value.fulfillmentServiceId),
                Some(setup.value.(step2Completed := true)), Step2Writes(selection, replies))
  }

  /** The duplicate error is singular for one stored match, plural for more,
      and names the title of every stored match. */
  lemma DuplicateErrorNamesEachMatch(existing: seq<ManagedProduct>, k: int)
    requires 0 <= k < |existing|
    ensures |existing| == 1 ==> DuplicateMessage(existing) == "This product is already added: " + existing[0].entry.title
    ensures |existing| > 1 ==> DuplicateMessage(existing)[..34] == "These products are already added: "
    ensures Includes(DuplicateMessage(existing), existing[k].entry.title)
  {
    var titles := Titles(existing);
    var joined := Join(titles, ", ");
    JoinContainsEach(titles, ", ", k);
    var i :| OccursAt(joined, titles[k], i);
    if |existing| == 1 {
      OccursAfterPrefix("This product is already added: ", joined, titles[k], i);
    } else {
      OccursAfterPrefix("These products are already added: ", joined, titles[k], i);
    }
  }

  /** The end state after a selection is stored: every selected variant with
      an inventory item reads 0 at every listed location other than the
      target, and keeps its quantity at the target. */
  lemma Step2Consolidates(setup: Option<ShopSetup>, selection: seq<Entry>, stored: seq<ManagedProduct>, replies: Replies, ledger: Ledger, v: string)
    requires Step2Action(setup, selection, stored, replies).response.RedirectToProducts?
    requires replies.fulfillmentLocation.Some? && replies.locations.Some?
    requires v in VariantIds(selection) && v in ItemMap(replies.variantNodes)
    ensures var after := ApplyAll(ledger, Step2Action(setup, selection, stored, replies).writes);
      var item := ItemMap(replies.variantNodes)[v];
      var target := replies.fulfillmentLocation.value;
      && (forall l :: l in replies.locations.value && l != target ==> (item, l) in after && after[(item, l)] == 0)
      && (item, target) in after
      && after[(item, target)] == (if (item, target) in ledger then ledger[(item, target)] else 0)
  {
    SkippingTargetKeepsItsStock(ledger, VariantIds(selection), ItemMap(replies.variantNodes),
      replies.locations.value, replies.fulfillmentLocation.value, v);
  }
}

=== FILE: store.dfy ===
/** The persisted records the application reads and writes. */
module Store {
  import opened Values

  /** The per-shop provisioning record. Each id is a nullable external reference. */
  datatype ShopSetup = ShopSetup(
    carrierServiceId: Option<string>,
    fulfillmentServiceId: Option<string>,
    orderWebhookId: Option<string>,
    step1Completed: bool,
    step2Completed: bool)

  datatype OrderStatus = Pending | Requested | Fulfilled

  /** Position of a status in the lifecycle PENDING, REQUESTED, FULFILLED. */
  function Rank(s: OrderStatus): nat {
    match s
    case Pending => 0
    case Requested => 1
    case Fulfilled => 2
  }

  /** The order table, by order id; only the status of an order matters here. */
  type OrderTable = map<string, OrderStatus>
}

=== FILE: text.dfy ===
/** The handful of JavaScript string operations the application relies on:
    `toLowerCase`, `includes`, `join`, decimal rendering of integers and
    `lastIndexOf`. */
module Text {
  import opened Values

  predicate IsUpper(c: char) {
    'A' <= c <= 'Z'
  }

  /** Lower-cases an ASCII capital letter and leaves every other character alone. */
  function LowerChar(c: char): char {
    if IsUpper(c) then (c as int + 32) as char else c
  }

  /** `String.prototype.toLowerCase`, restricted to the ASCII letters. */
  function ToLower(s: string): (r: string)
    ensures |r| == |s|
    ensures forall i :: 0 <= i < |r| ==> !IsUpper(r[i])
    ensures forall i :: 0 <= i < |s| && IsUpper(s[i]) ==> r[i] as int == s[i] as int + 32
    ensures forall i :: 0 <= i < |s| && !IsUpper(s[i]) ==> r[i] == s[i]
  {
    seq(|s|, i requires 0 <= i < |s| => LowerChar(s[i]))
  }

  /** Lower-casing twice is lower-casing once. */
  lemma ToLowerIdempotent(s: string)
    ensures ToLower(ToLower(s)) == ToLower(s)
  {
  }

  /** `sub` occurs in `s` starting at index `i`. */
  ghost predicate OccursAt(s: string, sub: string, i: int) {
    0 <= i && i + |sub| <= |s| && s[i..i + |sub|] == sub
  }

  lemma OccursInTail(s: string, sub: string)
    requires |s| > 0
    ensures (exists i :: OccursAt(s[1..], sub, i)) <==> (exists i :: 1 <= i && OccursAt(s, sub, i))
  {
    forall i | OccursAt(s[1..], sub, i)
      ensures OccursAt(s, sub, i + 1)
    {
      assert s[1..][i..i + |sub|] == s[i + 1..i + 1 + |sub|];
    }
    forall i | 1 <= i && OccursAt(s, sub, i)
      ensures OccursAt(s[1..], sub, i - 1)
    {
      assert s[1..][i - 1..i - 1 + |sub|] == s[i..i + |sub|];
    }
  }

  /** `String.prototype.includes`: true exactly when `sub` occurs somewhere in `s`. */
  function Includes(s: string, sub: string): (b: bool)
    ensures b <==> exists i :: OccursAt(s, sub, i)
    decreases |s|
  {
    if |s| < |sub| then false
    else if s[..|sub|] == sub then assert OccursAt(s, sub, 0); true
    else
      assert !OccursAt(s, sub, 0);
      OccursInTail(s, sub);
      Includes(s[1..], sub)
  }

  /** An occurrence in `t` is an occurrence in `p + t`, shifted by `|p|`. */
  lemma OccursAfterPrefix(p: string, t: string, sub: string, i: int)
    requires OccursAt(t, sub, i)
    ensures OccursAt(p + t, sub, |p| + i)
  {
    assert (p + t)[|p| + i..|p| + i + |sub|] == t[i..i + |sub|];
  }

  /** `Array.prototype.join` on strings. */
  function Join(parts: seq<string>, sep: string): string
  {
    if |parts| == 0 then ""
    else if |parts| == 1 then parts[0]
    else parts[0] + sep + Join(parts[1..], sep)
  }

  /** Every joined part can be found in the joined text. */
  lemma {:induction false} JoinContainsEach(parts: seq<string>, sep: string, k: int)
    requires 0 <= k < |parts|
    ensures Includes(Join(parts, sep), parts[k])
  {
    var r := Join(parts, sep);
    if k == 0 {
      if |parts| == 1 {
        assert r[0..|parts[0]|] == parts[0];
      } else {
        assert r == parts[0] + (sep + Join(parts[1..], sep));
        assert r[0..|parts[0]|] == parts[0];
      }
      assert OccursAt(r, parts[k], 0);
    } else {
      JoinContainsEach(parts[1..], sep, k - 1);
      var rest := Join(parts[1..], sep);
      var i :| OccursAt(rest, parts[k], i);
      assert r == (parts[0] + sep) + rest;
      OccursAfterPrefix(parts[0] + sep, rest, parts[k], i);
    }
  }

  predicate IsDigit(c: char) {
    '0' <= c <= '9'
  }

  predicate AllDigits(s: string) {
    forall i :: 0 <= i < |s| ==> IsDigit(s[i])
  }

  function DigitChar(d: nat): (c: char)
    requires d < 10
    ensures IsDigit(c) && c as int - '0' as int == d
  {
    ('0' as int + d) as char
  }

  /** The number a string of decimal digits denotes. */
  function DigitsValue(s: string): nat
    requires AllDigits(s)
  {
    if |s| == 0 then 0
    else DigitsValue(s[..|s| - 1]) * 10 + (s[|s| - 1] as int - '0' as int)
  }

  /** The UTF-16 code units a character takes: two for a character outside
      the Basic Multilingual Plane (a surrogate pair), one otherwise. */
  function Utf16Units(c: char): nat {
    if c as int >= 0x1_0000 then 2 else 1
  }

  /** JavaScript's `String.prototype.length`: the number of UTF-16 code units,
      which exceeds the number of characters by one per character outside the
      Basic Multilingual Plane. */
  function Utf16Length(s: string): (n: nat)
    ensures |s| <= n <= 2 * |s|
    ensures n == |s| <==> forall k :: 0 <= k < |s| ==> s[k] as int < 0x1_0000
    decreases |s|
  {
    if |s| == 0 then 0
    else
      var n := Utf16Units(s[0]) + Utf16Length(s[1..]);
      assert forall k :: 1 <= k < |s| ==> s[k] == s[1..][k - 1];
      n
  }

  /** UTF-16 length adds up over concatenation. */
  lemma {:induction false} Utf16LengthAppend(a: string, b: string)
    ensures Utf16Length(a + b) == Utf16Length(a) + Utf16Length(b)
    decreases |a|
  {
    if |a| > 0 {
      assert (a + b)[1..] == a[1..] + b;
      Utf16LengthAppend(a[1..], b);
    } else {
      assert a + b == b;
    }
  }

  /** Decimal rendering of a natural number, as a template string prints one:
      a non-empty string of digits that reads back as the same number, with no
      leading zero. */
  function Decimal(n: nat): (r: string)
    ensures |r| > 0 && AllDigits(r)
    ensures DigitsValue(r) == n
    ensures r[0] == '0' ==> n == 0 && r == "0"
    decreases n
  {
    if n < 10 then [DigitChar(n)]
    else
      var d := Decimal(n / 10);
      var r := d + [DigitChar(n % 10)];
      assert r[..|r| - 1] == d;
      r
  }

  /** `String.prototype.lastIndexOf` for a single character. */
  function LastIndexOf(s: string, c: char): (r: Option<nat>)
    ensures r.Some? ==> r.value < |s| && s[r.value] == c
    ensures r.Some? ==> forall k :: r.value < k < |s| ==> s[k] != c
    ensures r.None? ==> forall k :: 0 <= k < |s| ==> s[k] != c
    decreases |s|
  {
    if |s| == 0 then None
    else if s[|s| - 1] == c then Some(|s| - 1)
    else LastIndexOf(s[..|s| - 1], c)
  }
}

=== FILE: values.dfy ===
/** Value types shared by every part of the model: optional values, results,
    platform ids, JavaScript truthiness of nullable strings, subsequences. */
module Values {

  datatype Option<+T> = None | Some(value: T)

  /** The outcome of a step that either yields a value or throws an error message. */
  datatype Result<+T> = Ok(value: T) | Err(error: string)

  /** A platform global id such as `gid://shopify/Location/7`. The platform's
      GraphQL `ID!` fields are never empty. */
  type Gid = s: string | |s| > 0 witness "0"

  /** The message of the TypeError JavaScript throws when a handler reads a
      field of a `null` reply. */
  const NullRead := "TypeError: Cannot read properties of null"

  /** JavaScript truthiness of a nullable string: `null` and `""` are falsy. */
  predicate Truthy(o: Option<string>) {
    o.Some? && o.value != ""
  }

  /** `a` is obtained from `b` by deleting elements (greedy matching from the front). */
  ghost predicate IsSubseq<T>(a: seq<T>, b: seq<T>)
    decreases |b|
  {
    if |a| == 0 then true
    else if |b| == 0 then false
    else if a[0] == b[0] then IsSubseq(a[1..], b[1..])
    else IsSubseq(a, b[1..])
  }
}
